=== FILE: README.md ===
# Economics Explainer Bot — a Dafny model of its text core

The bot is a command-line tutor. It reads a line and either changes its
configuration (`mode`, `marks`, `topic`, `model`, `clear`, `help`, `exit`) or
treats the line as a question. Questions may be prefixed with a slash tag
(`/notes`, `/mcq`, `/pyq`). The bot builds a prompt for a hosted text model,
cleans the model's reply and post-processes it per mode: an answer key for
mcq, fixed headings for pyq, a header for notes. This project models the
deterministic part of that in pure Dafny functions, and proves what each
step guarantees.

Modules, one per concern:

- `Optional` (`optional.dfy`): `Option<T>`. It stands for `None` results in
  Python and for exceptions such as `KeyError` and `ValueError`.
- `Str` (`str.dfy`): the Python string built-ins the code relies on, over
  `seq<char>`:
  - `isspace` with Python's full whitespace set, `strip`, `split()`,
    `" ".join`, `splitlines`;
  - ASCII `lower`/`upper` and case-insensitive search;
  - `str(int)`, and `int(str)` with sign, the surrounding whitespace CPython
    skips, single underscores and the 4300-digit limit.
- `Utils` (`utils.dfy`), from `app/utils.py`:
  - `clamp_chat_history` with Python's negative-slice semantics;
  - `safe_strip`;
  - the backoff delay `min(8, 2**attempt)`;
  - `strip_think_blocks`. Both regular expressions are written out as
    first-match searches.
- `Prompts` (`prompts.dfy`), from `app/prompts.py`:
  - the mode and configuration records;
  - `marks_guidance`, `mode_format`, `build_prompt`, `summarize_context`.
- `Answer` (`answer.dfy`): the answer post-processing inlined in the loop of
  `app/main.py`. That is the mcq answer-key guarantee, the pyq bucketing and
  heading layout, and the notes header.
- `Cli` (`cli.dfy`): the rest of the loop in `app/main.py`, lifted into pure
  functions:
  - `parse_command`;
  - a `Session` record (configuration, chat history, model name) and one
    `Step` per input line, returning the new session and an `Outcome`;
  - slash extraction;
  - the per-mode request plan (prompt, token budget, temperature);
  - `Run` over a list of lines, and the session invariant.

  `Step` follows the slash extraction as written. `StepCorrected` is the
  same loop with the bare-tag defect (see "## Findings") repaired.

The prompt texts (`SYSTEM_RULES`, `FORMAT_*`, the guidance lines, the default
pyq bullets, the answer-key line) are kept verbatim. `Compose` lays out a
prompt for any rules text and format. `BuildPrompt` instantiates it with the
fixed ones.

## Model

| member | source | states |
|---|---|---|
| Str.Strip | app/utils.py:52 | the result has no whitespace at either end; it is empty exactly when the input is all whitespace; it is the input with its leading and trailing whitespace runs cut off |
| Str.StripIdempotent | app/utils.py:52 | stripping twice gives the same text as stripping once |
| Str.Split | app/utils.py:34 | every piece of `split()` is a non-empty run of non-whitespace characters |
| Str.SplitJoin | app/utils.py:34 | splitting words joined by single spaces gives back exactly those words |
| Str.SplitOfStrip | app/utils.py:34 | `s.strip().split() == s.split()` |
| Str.ConcatSplit | app/utils.py:34 | the pieces of `split()`, concatenated, are exactly the input's non-whitespace characters in order |
| Str.SplitLines | app/main.py:176 | no piece of `splitlines()` contains a line break |
| Str.SplitLinesJoin | app/main.py:176 | lines without line breaks, the last non-empty, joined with `\n` split back into exactly those lines |
| Str.MatchesAtLower | app/main.py:180 | a case-insensitive match of `p` at position `i` is exactly an occurrence of `p` at `i` in `s.lower()` |
| Str.ContainsLower | app/main.py:163 | `p in s.lower()` holds exactly when `ContainsCI(s, p)` does; the model uses `ContainsCI` for every such test |
| Str.FindFrom | app/utils.py:50-51 | the result is the first case-insensitive match at or after the start index; None only when there is no match there |
| Str.ParseInt | app/main.py:85 | `int()` of a blank string fails (the `ValueError` branch), and it succeeds only when the whitespace around the numeral is whitespace `int()` skips |
| Str.ParseIntOfString | app/main.py:85 | `int(str(n)) == n` for every integer of at most 4300 digits, negative ones included; a longer numeral is refused |
| Str.ParseIntIgnoresSpace | app/main.py:85 | whitespace that `int()` skips does not change what it reads, and stripping a numeral that `int()` reads keeps its value |
| Str.IntRefusesSeparator | app/main.py:85 | `int()` refuses `"\x1c5"` although `strip()` reduces it to `"5"` |
| Utils.ClampChatHistory | app/utils.py:24-28 | the result is a suffix of the input; `[]` for `[]`; its length is `min(len, 2*max_turns)` for `max_turns >= 1`; the whole list for `max_turns == 0` (`[-0:]`); `len + 2*max_turns`, floored at 0, for negative `max_turns` |
| Utils.ClampIdempotent | app/utils.py:24-28 | clamping a clamped history changes nothing |
| Utils.SafeStrip | app/utils.py:31-34 | `""` for None or `""`; the result has no edge whitespace, no whitespace but single spaces, no two spaces in a row; it has the same words as the input, in order, and the same non-whitespace characters |
| Utils.SafeStripIdempotent | app/utils.py:31-34 | `safe_strip` of its own result changes nothing |
| Utils.SafeStripFixpoint | app/utils.py:34 | a text is left unchanged by `safe_strip` exactly when it is already collapsed |
| Utils.BackoffDelay | app/utils.py:38 | the delay is between 1 and 8 and equals `2**attempt` for the first four attempts |
| Utils.BackoffMonotonic | app/utils.py:38 | the delay never decreases with the attempt number and is 8 from attempt 3 on |
| Utils.RemovePairedBlocks | app/utils.py:50 | never lengthens the text and leaves text without an opener unchanged |
| Utils.CutUnterminated | app/utils.py:51 | the result is a prefix without an opener; it is the whole text exactly when the text has no opener; otherwise the cut is at an opener |
| Utils.StripThinkBlocks | app/utils.py:41-52 | `""` for `""`; the result holds no case-insensitive `<think>` and no edge whitespace; text without an opener is only stripped |
| Utils.StripThinkBlocksIdempotent | app/utils.py:48-52 | cleaning a cleaned text changes nothing |
| Utils.RemovesPairedBlock | app/utils.py:50 | a block from the first opener to the next closer, in any letter case, is deleted, and removal carries on after it |
| Utils.StripsUnterminatedBlock | app/utils.py:51-52 | an opener with no closer after it cuts the text there, and the rest is stripped |
| Utils.StripsPairedBlock | app/utils.py:50-52 | a closed block disappears and the text around it is kept and stripped |
| Prompts.ParseMode | app/main.py:105-108 | a name is accepted exactly when it is one of the six mode names, and the mode it yields has that name |
| Prompts.ParseModeName | app/main.py:107 | every mode's own name parses back to that mode |
| Prompts.MarksGuidance | app/prompts.py:63-68 | each integer gets exactly one of the three texts: up to 2 very short, 3 to 5 medium, above 5 long |
| Prompts.ModeFormat | app/prompts.py:71-78 | explain, numerical, notes, mcq and exam each get their own format text; `pyq` has no entry (the `KeyError`) |
| Prompts.ModeFormatInjective | app/prompts.py:71-78 | no two modes share a format |
| Prompts.BuildPrompt | app/prompts.py:81-98 | fails exactly for `pyq`; otherwise it is the layout of `Compose` with the fixed rules and the mode's format |
| Prompts.Compose | app/prompts.py:88-97 | the prompt starts with the rules, the topic line and the mode line, and ends with the format, the chat block and `User question: …\n\nAnswer:` |
| Prompts.TopicLine | app/prompts.py:85 | the topic line is empty exactly when the topic is blank, otherwise `Topic context: ` then the topic and a line break |
| Prompts.ContextBlock | app/prompts.py:86 | the chat block is empty exactly when the context is blank, otherwise it opens with `Recent chat context:\n` and the context and ends with a blank line |
| Prompts.ModeLine | app/prompts.py:91 | the mode line is `Mode: ` then the mode's name and a line break |
| Prompts.MarksLine | app/prompts.py:92 | the marks line is `Marks: ` with the number, then the guidance in parentheses and a blank line |
| Prompts.Ending | app/prompts.py:96-97 | the prompt's end is the question after `User question: `, then `\n\nAnswer:` |
| Prompts.TopicLineIffTopic | app/prompts.py:85-90 | the prompt has `Topic context: ` right after the rules exactly when the topic is not blank |
| Prompts.Recent | app/prompts.py:108 | `messages[-8:]`: the whole list when it has at most 8 messages, otherwise the last 8 |
| Prompts.SummarizeContext | app/prompts.py:101-112 | `""` for no messages; only the last 8 messages count; the summary ends with the last message's entry |
| Prompts.SummaryLines | app/prompts.py:108-112 | when no role or content holds a line break, the summary's lines are exactly one `ROLE: content` entry per message of the last eight, in order |
| Prompts.SummaryIgnoresOlder | app/prompts.py:108 | messages before the last eight never change the summary |
| Prompts.SummaryOfClampedHistory | app/prompts.py:108 | clamping the history to four turns or more before summarising changes nothing |
| Answer.EnsureAnswerKey | app/main.py:160-164 | the result always mentions an answer key in some letter case; an answer that already does is unchanged; otherwise the result is the stripped answer followed by the default key |
| Answer.EnsureAnswerKeyIdempotent | app/main.py:163-164 | adding the key a second time changes nothing |
| Answer.NonBlankLines | app/main.py:176 | a line is kept exactly when it is the non-empty stripped form of some input line; kept lines are stripped, and none has a line break when the input lines have none |
| Answer.Classify | app/main.py:179-188 | a line is structure exactly when it mentions intro, body or conclusion; a key point exactly when it is not structure and mentions a key point or starts with a bullet or `1.`–`5.`; an expectation exactly when it is neither and mentions an examiner or `expect`; never a sample |
| Answer.InBucket | app/main.py:179-188 | a line is in a bucket exactly when it is a line of the answer of that bucket's kind; the bucket is no longer than the answer |
| Answer.NonBlankLinesAppend | app/main.py:176 | the kept lines of two runs of lines are the kept lines of the first run followed by those of the second |
| Answer.NonBlankLinesOne | app/main.py:176 | a single line is kept, stripped, exactly when it is not blank; with the law above, the filter keeps the order and the repetitions of the lines |
| Answer.InBucketAppend | app/main.py:176-188 | the bucket of two runs of lines is the bucket of the first run followed by that of the second |
| Answer.InBucketOne | app/main.py:179-188 | a single line is in a bucket exactly when it is classified into it; so each bucket is the answer's lines of its kind in answer order, and the caps at lines 193-197 show the first ones |
| Answer.BucketsPartition | app/main.py:179-188 | the sizes of the four buckets and of the unsorted lines add up to the number of lines, so each line is counted exactly once |
| Answer.NoSamples | app/main.py:183-188 | the sample bucket is always empty: every `1.`/`2.` line is already a key point |
| Answer.Take | app/main.py:193-197 | `items[:cap]` is the first `min(len, cap)` items |
| Answer.LStripChars | app/main.py:199-201 | `lstrip(chars)` returns a suffix that does not start with any of `chars`, and every character removed before it is one of `chars` |
| Answer.Shown | app/main.py:193-197 | a section shows the first `cap` lines of its bucket, or the fixed bullets when the bucket is empty |
| Answer.PyqReformatLines | app/main.py:166-202 | the pyq answer is its four headings in order. Under them are the shown bullets of each bucket (at most 6, 7 and 5) and the two fixed sample questions. Sections are separated by blank lines |
| Answer.PyqSplitLines | app/main.py:166-202 | `splitlines()` of the pyq answer gives back exactly those lines: no line of the model's answer breaks a bullet in two |
| Answer.PyqReformat | app/main.py:166-202 | the pyq answer always opens with the structure heading on its own line |
| Answer.WrapNotes | app/main.py:209-215 | the notes answer begins with the two header lines, ends with a line break, and is exactly one character longer than header plus answer |
| Answer.UnwrapWrapNotes | app/main.py:209-215 | the model's answer can be read back from the notes output |
| Answer.WrapUnwrapNotes | app/main.py:209-215 | every text that unwraps is the wrapping of what it unwraps to |
| Answer.CleanAnswer | app/main.py:157 | the cleaned reply has no reasoning-block opener and no edge whitespace; the second strip changes nothing |
| Answer.FinalAnswer | app/main.py:157-215 | per mode: mcq always mentions an answer key and keeps an answer that has one; pyq opens with its heading; notes unwraps to the cleaned reply; the chat modes show the cleaned reply as is |
| Answer.McqFinalStable | app/main.py:160-164 | post-processing an mcq answer again changes nothing |
| Cli.ParseCommand | app/main.py:35-41 | fails exactly on a blank line; the command is the first whitespace-free token, lower-cased; the argument is the stripped rest (`""` when absent) |
| Cli.ParseBareCommand | app/main.py:36-41 | a single word parses to its lower-cased self with an empty argument |
| Cli.ParseCommandWithArg | app/main.py:36-41 | a word, a space and an argument parse back to the lower-cased word and that argument |
| Cli.InitialSession | app/main.py:54-55 | the loop starts in explain mode with 5 marks, no topic and no history, which satisfies the session invariant |
| Cli.TokenBudget | app/main.py:134-153 | notes gets 260 tokens exactly for 2 marks, 360 exactly for 5 and 520 otherwise; mcq and pyq get 520; every other mode gets 300 |
| Cli.NotesBudgetGrowsWithMarks | app/main.py:136 | more marks give notes a strictly larger budget |
| Cli.Temperature | app/main.py:137-153 | the temperature is 0.10 exactly for mcq and between 0.10 and 0.20 for all modes |
| Cli.ChatHistory | app/main.py:148-149 | the question is the last message; the rest is a suffix of the old history; the whole is clamped to six turns |
| Cli.ChatPrompt | app/main.py:151 | the chat prompt is the summary, then `\nUser: `, the question and `\nAssistant:`, with nothing in between (prefix, suffix and total length) |
| Cli.ChatContextIsSummary | app/main.py:148-150 | clamping the history before summarising it loses nothing: the summary of the clamped history without the new question equals the summary of the whole old history |
| Cli.PlanRequest | app/main.py:131-153 | the request carries the mode's budget and temperature. Notes, mcq and pyq use their own fill prompt and keep the history. The chat modes record the question in the clamped history and prompt with the summary of that history without the new message |
| Cli.ChatRequestUsesRecentHistory | app/main.py:148-151 | in the chat modes only the last eight messages of the history shape the request |
| Cli.ExtractSlashAsWritten | app/main.py:115-125 | as written, a line is a slash command exactly when it starts with `/notes `, `/mcq ` or `/pyq `; the tag gives the mode and the question is the stripped rest of the line |
| Cli.AsWrittenNeverRejects | app/main.py:124-129 | as written, a non-empty stripped line never gives an empty question, so the rejection at lines 127-129 cannot fire |
| Cli.BareTagAsWritten | app/main.py:115-125 | as written, a bare `/notes`, `/mcq` or `/pyq` is not a slash command |
| Cli.ExtractSlash | app/main.py:115-129 | a slash command is recognised exactly when the line is a tag, or a tag followed by a space; its mode is that tag's mode and its question is the stripped rest of the line |
| Cli.BareTagRejected | app/main.py:115-129 | with the correction a bare tag yields its mode and an empty question |
| Cli.ExtractAgreesAwayFromBareTags | app/main.py:115-125 | the corrected and the written extraction agree on every line except the three bare tags |
| Cli.AskFor | app/main.py:114-153 | given the slash command read from the line: the mode becomes the tag's mode (or stays); the line is rejected exactly when the question is empty; otherwise it is asked as the tag's question (or the whole line); marks, topic and model never change; the history is kept or records the question; an asked question's request and new history are exactly what `PlanRequest` plans for it in the new mode |
| Cli.AskQuestion | app/main.py:114-153 | with the slash extraction as written, a non-empty line is always asked and never rejected; the mode changes only when a tag followed by a space was found; marks, topic and model never change; the request and history are the ones `PlanRequest` plans |
| Cli.RunCommand | app/main.py:73-112 | a command word is handled exactly when it is one of `help`, `?`, `exit`, `clear`, `marks`, `topic`, `model`, `mode`. `help`/`?` show the help and `exit` quits, changing nothing, and only they do; `clear` empties the history and only it reports so; `model` with no name is rejected, otherwise it sets the model. A known command never asks a question. Marks change only to 2, 5 or 10. The topic, model and mode change only through their own command. Only `clear` empties the history. `help` and `exit` change nothing |
| Cli.Dispatch | app/main.py:71-153 | a non-blank line is a command or a question, with the same frame conditions as `Step`, for the extraction as written and for the corrected one |
| Cli.Step | app/main.py:63-153 | a line is skipped exactly when it is blank. Each configuration field changes only through its own command, or the mode through a question. The history changes only by `clear` or a question. The result for each command and for questions is stated by the lemmas below |
| Cli.StepOutcomes | app/main.py:72-81 | a line quits exactly when its command word is `exit` (whatever follows), shows the help exactly for `help` or `?`, and reports a cleared history exactly for `clear`, which empties the history and changes nothing else |
| Cli.StepPreservesInv | app/main.py:54-153 | every line keeps marks in {2, 5, 10} and the history at most twelve messages, each a non-empty user question |
| Cli.Run | app/main.py:61-78 | at most one outcome per line; no outcome before the last is a quit; the loop stops before the end of the input only on a quit |
| Cli.RunOne | app/main.py:61-153 | reading one line is one step: the loop's session and single outcome are the step's |
| Cli.RunAppend | app/main.py:61-78 | reading `a` then `b` equals reading `a` and then `b` from the session `a` left, with the outcomes concatenated, when no line of `a` quits; once a line of `a` quits, `b` is never read |
| Cli.RunPreservesInv | app/main.py:54-153 | the invariant holds after any sequence of lines |
| Cli.MarksCommand | app/main.py:83-93 | `marks N` sets marks exactly when N is 2, 5 or 10; otherwise it reports out of range, or not a number past the 4300-digit limit, changing nothing |
| Cli.ModeCommand | app/main.py:105-112 | `mode X` selects the mode whose name X spells in any letter case |
| Cli.TopicCommand | app/main.py:94-97 | `topic T` sets the topic to T verbatim |
| Cli.ModelCommand | app/main.py:98-104 | `model NAME` in any letter case sets the model to NAME and changes nothing else |
| Cli.BareModelCommand | app/main.py:98-101 | `model` with no name is rejected and changes nothing |
| Cli.PlainQuestion | app/main.py:114-153 | a line that is neither a command nor a slash command is asked, stripped, in the current mode, with the request and history `PlanRequest` gives |
| Cli.ChatQuestion | app/main.py:131-153 | in a chat mode such a line is recorded in the clamped history and sent as the summary of the history so far, `\nUser: `, the question and `\nAssistant:`, with 300 new tokens at temperature 0.2 |
| Cli.SlashLineIsQuestion | app/main.py:71-112 | no line starting with `/` is a configuration command |
| Cli.SlashExtract | app/main.py:115-125 | as written, `tag Q` with a stripped non-empty Q is recognised as that tag's mode with question Q |
| Cli.SlashCommand | app/main.py:115-145 | `/notes Q`, `/mcq Q`, `/pyq Q` switch to that mode and ask Q with the mode's own request, leaving the history alone |
| Cli.BareSlashAsked | app/main.py:115-153 | as written, a bare `/notes`, `/mcq` or `/pyq` keeps the current mode and is asked as the question `/notes` (or `/mcq`, `/pyq`) |
| Cli.StepCorrected | app/main.py:63-153 | the corrected loop step skips exactly the blank lines, changes marks only to 2, 5 or 10, and changes the history only by `clear` or a question |
| Cli.BareSlashRejected | app/main.py:115-129 | with the correction a bare tag selects its mode and is rejected for want of a question |
| Cli.CorrectionOnlyAffectsBareTags | app/main.py:115-129 | the corrected step and the step as written agree on every line whose stripped text is not a bare tag |

## Left out

- `app/llm.py` (the HTTP client, its retries and JSON decoding) is not part of
  this model. So are `client.generate`: the model's reply is a parameter of
  `Answer.FinalAnswer`. Also left out are `client.set_model` (the session
  only records the name) and any exception raised by generation.
- Terminal I/O, `load_dotenv`, the help text, `print` messages (an `Outcome`
  names each message instead) and end of input (`Cli.Run` ends with its list
  of lines).
- Logging and the clock: `write_jsonl`, `ensure_dir`, `now_iso` and the log
  record are side effects with no bearing on the answer.
- `time.sleep` itself; only its delay value is modelled.
- `notes_fill_prompt`, `mcq_fill_prompt` and `pyq_fill_prompt` are imported by
  the loop but defined nowhere in the source. The model keeps their calls as
  data (`NotesFill`, `McqFill`, `PyqFill`).
- When generation fails the question stays in the history. The model keeps
  this because `PlanRequest` records the question before any reply exists.
- Cli.Temperature: temperatures are integers in hundredths (15, 10, 15, 20)
  because Dafny has no floating point.
- Utils.BackoffDelay: the attempt is a natural number. Python's `2**attempt`
  is a float for negative attempts, and the client never passes one.
- Str.Lower: ASCII only. Python's `lower()` also lower-cases every non-ASCII
  cased letter (`É` becomes `é`), and the model leaves those unchanged. The
  program compares the lowered text only with ASCII words. There the one
  difference that matters is U+212A KELVIN SIGN, which Python lowers to `k`.
  So a command word spelled with it, or an answer key spelled with it, is
  recognised by Python but not here.
- Str.FindFrom: the regular expressions' IGNORECASE is modelled as ASCII
  case folding. Python's Unicode IGNORECASE also lets U+212A match `k`, and
  U+0130 and U+0131 (dotted capital and dotless small i) match `i`. So a
  block opened by a tag such as `<thınk>` is removed by Python and kept by
  the model.
- Str.ParseInt: only ASCII digits. Python's `int()` also accepts the other
  Unicode decimal digits. The 4300-digit bound is CPython's default (from
  3.11 and its security releases); a bound changed through
  `sys.set_int_max_str_digits` or `PYTHONINTMAXSTRDIGITS`, or an
  interpreter without one, is not modelled.
- Prompts.Entry: `upper()` of the role is ASCII only. Python also maps
  non-ASCII letters and ligatures, some to two characters.
- Prompts.Compose: the contract states the prompt's prefix (rules, topic line,
  mode line) and suffix (format, chat block, question). It does not separately
  state that the marks line sits between them.

## Findings

| source | as written | input that shows it | evidently intended | confidence | as-written member | corrected member |
|---|---|---|---|---|---|---|
| app/main.py:115-129 | a slash tag counts only when followed by a space, but the line was stripped first, so a bare tag never matches and the empty-question rejection at lines 127-129 is unreachable | the line `/notes` (or `/mcq`, `/pyq`) is sent to the model as the question `/notes` in the current mode | a bare tag selects its mode and is rejected with "Please provide a topic/question." | medium, not executed | Cli.ExtractSlashAsWritten (used by Cli.Step; with Cli.AsWrittenNeverRejects, Cli.BareTagAsWritten, Cli.BareSlashAsked) | Cli.ExtractSlash (used by Cli.StepCorrected; with Cli.BareTagRejected, Cli.BareSlashRejected) |

`Cli.Step`, and through it `Cli.Run` and the invariant lemmas, model the
loop as written. `Cli.StepCorrected` repairs it.
`Cli.CorrectionOnlyAffectsBareTags` shows the repair changes nothing on any
line other than the three bare tags.

=== FILE: answer.dfy ===
/** Post-processing of a generated answer before it is shown: reasoning
    blocks removed, an answer key guaranteed for `mcq`, the fixed four
    headings forced for `pyq`, and the key-terms header put on `notes`. */
module Answer {
  import opened Optional
  import opened Str
  import opened Utils
  import opened Prompts

  // ---------------------------------------------------------------------
  // mcq: the answer-key guarantee
  // ---------------------------------------------------------------------

  const AnswerKeyPhrase := "answer key"
  const DefaultAnswerKey := "\n\nAnswer Key:\n1-A, 2-A, 3-A, 4-A, 5-A"

  lemma DefaultAnswerKeyHasPhrase()
    ensures MatchesAt(DefaultAnswerKey, 2, AnswerKeyPhrase)
  {
  }

  /** The mcq answer: unchanged when it already mentions an answer key (in
      any letter case), otherwise stripped and followed by a key that
      answers A to all five questions. */
  function EnsureAnswerKey(answer: string): (r: string)
    ensures ContainsCI(r, AnswerKeyPhrase)
    ensures ContainsCI(answer, AnswerKeyPhrase) ==> r == answer
    ensures !ContainsCI(answer, AnswerKeyPhrase) ==>
      StartsWith(r, Strip(answer)) && EndsWith(r, DefaultAnswerKey) && |r| == |Strip(answer)| + |DefaultAnswerKey|
  {
    if !ContainsCI(answer, AnswerKeyPhrase) then
      var r := Strip(answer) + DefaultAnswerKey;
      DefaultAnswerKeyHasPhrase();
      MatchInSuffix(Strip(answer), DefaultAnswerKey, 2, AnswerKeyPhrase);
      assert r[..|Strip(answer)|] == Strip(answer);
      assert r[|r| - |DefaultAnswerKey|..] == DefaultAnswerKey;
      r
    else answer
  }

  lemma EnsureAnswerKeyIdempotent(answer: string)
    ensures EnsureAnswerKey(EnsureAnswerKey(answer)) == EnsureAnswerKey(answer)
  {
  }

  // ---------------------------------------------------------------------
  // pyq: heading enforcement
  // ---------------------------------------------------------------------

  /** The bucket a line of the model's pyq answer is sorted into. */
  datatype Bucket = Structure | KeyPoint | Expectation | Sample | Unused

  predicate MentionsStructure(line: string) {
    ContainsCI(line, "introduction") || ContainsCI(line, "intro")
    || ContainsCI(line, "body") || ContainsCI(line, "conclusion")
  }

  predicate MarksKeyPoint(line: string) {
    ContainsCI(line, "key point")
    || MatchesAt(line, 0, "-") || MatchesAt(line, 0, "*")
    || MatchesAt(line, 0, "1.") || MatchesAt(line, 0, "2.") || MatchesAt(line, 0, "3.")
    || MatchesAt(line, 0, "4.") || MatchesAt(line, 0, "5.")
  }

  predicate MentionsExaminer(line: string) {
    ContainsCI(line, "examiner") || ContainsCI(line, "expect")
  }

  /** The priority-ordered tests of the bucketing loop. The sample test
      comes after the key-point test, which already takes every line
      starting with `1.` or `2.`, so no line is ever a sample. */
  function Classify(line: string): (b: Bucket)
    ensures b != Sample
    ensures b == Structure <==> MentionsStructure(line)
    ensures b == KeyPoint <==> !MentionsStructure(line) && MarksKeyPoint(line)
    ensures b == Expectation <==> !MentionsStructure(line) && !MarksKeyPoint(line) && MentionsExaminer(line)
  {
    if MentionsStructure(line) then Structure
    else if MarksKeyPoint(line) then KeyPoint
    else if MentionsExaminer(line) then Expectation
    else if MatchesAt(line, 0, "1.") || MatchesAt(line, 0, "2.") then Sample
    else Unused
  }

  /** `l` is the non-empty stripped form of one of `lines`. */
  predicate KeptLine(lines: seq<string>, l: string) {
    l != "" && exists j :: 0 <= j < |lines| && l == Strip(lines[j])
  }

  lemma KeptLineCons(lines: seq<string>)
    requires lines != []
    ensures forall l :: KeptLine(lines, l) <==>
      (l != "" && l == Strip(lines[0])) || KeptLine(lines[1..], l)
  {
    forall l | KeptLine(lines, l) && l != Strip(lines[0])
      ensures KeptLine(lines[1..], l)
    {
      var j :| 0 <= j < |lines| && l == Strip(lines[j]);
      assert lines[1..][j - 1] == lines[j];
    }
    forall l | KeptLine(lines[1..], l)
      ensures KeptLine(lines, l)
    {
      var j :| 0 <= j < |lines[1..]| && l == Strip(lines[1..][j]);
      assert lines[j + 1] == lines[1..][j];
    }
  }

  /** `[ln.strip() for ln in lines if ln.strip()]`. */
  function NonBlankLines(lines: seq<string>): (r: seq<string>)
    ensures |r| <= |lines|
    ensures forall i :: 0 <= i < |r| ==> r[i] != "" && NoEdgeSpace(r[i])
    ensures forall l :: l in r <==> KeptLine(lines, l)
    ensures (forall i :: 0 <= i < |lines| ==> NoLineBreak(lines[i])) ==>
      forall i :: 0 <= i < |r| ==> NoLineBreak(r[i])
  {
    if lines == [] then []
    else
      var s := Strip(lines[0]);
      StripKeepsNoLineBreak(lines[0]);
      KeptLineCons(lines);
      (if s != "" then [s] else []) + NonBlankLines(lines[1..])
  }

  lemma StripKeepsNoLineBreak(s: string)
    ensures NoLineBreak(s) ==> NoLineBreak(Strip(s))
  {
    var r := Strip(s);
    var i := LeadingSpaces(s);
    if NoLineBreak(s) {
      forall k | 0 <= k < |r| ensures !IsLineBreak(r[k]) {
        assert r[k] == s[i + k];
      }
    }
  }

  /** The lines in bucket `b`, in their original order. */
  function InBucket(lines: seq<string>, b: Bucket): (r: seq<string>)
    ensures |r| <= |lines|
    ensures forall i :: 0 <= i < |r| ==> Classify(r[i]) == b
    ensures forall i :: 0 <= i < |r| ==> r[i] in lines
    ensures forall l :: l in r <==> l in lines && Classify(l) == b
    ensures (forall i :: 0 <= i < |lines| ==> lines[i] != "" && NoLineBreak(lines[i])) ==>
      forall i :: 0 <= i < |r| ==> r[i] != "" && NoLineBreak(r[i])
  {
    if lines == [] then []
    else (if Classify(lines[0]) == b then [lines[0]] else []) + InBucket(lines[1..], b)
  }

  /** The kept lines of a concatenation are those of each part, in order:
      together with the one-line case, the filter keeps the order and the
      repetitions of the lines it keeps. */
  lemma {:induction false} NonBlankLinesAppend(a: seq<string>, b: seq<string>)
    ensures NonBlankLines(a + b) == NonBlankLines(a) + NonBlankLines(b)
    decreases |a|
  {
    if a == [] {
      assert a + b == b;
    } else {
      var h := if Strip(a[0]) != "" then [Strip(a[0])] else [];
      NonBlankLinesHead(a);
      NonBlankLinesHeadAppend(a, b);
      NonBlankLinesAppend(a[1..], b);
      AppendAssoc(h, NonBlankLines(a[1..]), NonBlankLines(b));
    }
  }

  lemma NonBlankLinesHead(lines: seq<string>)
    requires lines != []
    ensures NonBlankLines(lines) == (if Strip(lines[0]) != "" then [Strip(lines[0])] else []) + NonBlankLines(lines[1..])
  {
  }

  lemma NonBlankLinesHeadAppend(a: seq<string>, b: seq<string>)
    requires a != []
    ensures NonBlankLines(a + b) == (if Strip(a[0]) != "" then [Strip(a[0])] else []) + NonBlankLines(a[1..] + b)
  {
    assert (a + b)[0] == a[0];
    assert (a + b)[1..] == a[1..] + b;
    NonBlankLinesHead(a + b);
  }

  /** One line is kept, stripped, exactly when it is not blank. */
  lemma NonBlankLinesOne(l: string)
    ensures AllSpace(l) ==> NonBlankLines([l]) == []
    ensures !AllSpace(l) ==> NonBlankLines([l]) == [Strip(l)]
  {
    assert [l][1..] == [];
  }

  /** The bucket of a concatenation is the buckets of its parts, in order. */
  lemma {:induction false} InBucketAppend(a: seq<string>, b: seq<string>, k: Bucket)
    ensures InBucket(a + b, k) == InBucket(a, k) + InBucket(b, k)
    decreases |a|
  {
    if a == [] {
      assert a + b == b;
    } else {
      assert (a + b)[0] == a[0];
      assert (a + b)[1..] == a[1..] + b;
      InBucketAppend(a[1..], b, k);
    }
  }

  /** One line is in bucket `k` exactly when it is classified as `k`. */
  lemma InBucketOne(l: string, k: Bucket)
    ensures Classify(l) == k ==> InBucket([l], k) == [l]
    ensures Classify(l) != k ==> InBucket([l], k) == []
  {
    assert [l][1..] == [];
  }

  /** Every line lands in exactly one bucket. */
  lemma {:induction false} BucketsPartition(lines: seq<string>)
    ensures |InBucket(lines, Structure)| + |InBucket(lines, KeyPoint)| + |InBucket(lines, Expectation)|
          + |InBucket(lines, Sample)| + |InBucket(lines, Unused)| == |lines|
  {
    if lines != [] {
      BucketsPartition(lines[1..]);
    }
  }

  /** The sample bucket is always empty. */
  lemma {:induction false} NoSamples(lines: seq<string>)
    ensures InBucket(lines, Sample) == []
  {
    if lines != [] {
      NoSamples(lines[1..]);
    }
  }

  /** The first `cap` items, or all when fewer. */
  function Take(items: seq<string>, cap: nat): (r: seq<string>)
    ensures |r| == Min(|items|, cap)
    ensures r == items[..|r|]
  {
    if |items| <= cap then items else items[..cap]
  }

  /** `s.lstrip(chars)`: leading characters drawn from `chars` removed. */
  function LStripChars(s: string, chars: string): (r: string)
    ensures EndsWith(s, r)
    ensures r == [] || r[0] !in chars
    ensures forall i :: 0 <= i < |s| - |r| ==> s[i] in chars
  {
    if s != [] && s[0] in chars then
      var r := LStripChars(s[1..], chars);
      assert s[|s| - |r|..] == s[1..][|s| - 1 - |r|..];
      r
    else s
  }

  /** `"- " + "\n- ".join(items)`. */
  function Bullets(items: seq<string>): string {
    "- " + JoinWith(items, "\n- ")
  }

  /** A heading line followed by its block. */
  function Section(heading: string, block: string): string {
    heading + "\n" + block
  }

  // The longest fixed texts are written in two pieces so that each piece
  // can be checked to be a single line on its own.
  const HeadStructure := "How to structure the answer " + "(Intro/Body/Conclusion):"
  const HeadKeyPoints := "Key points to include:"
  const HeadExpectations := "Common examiner expectations:"
  const HeadSamples := "2 sample past-year style questions:"

  const StructureCap := 6
  const KeyPointCap := 7
  const ExpectationCap := 5

  const DefaultStructure := ["Intro: Define the model.", "Body: Explain IS, LM, equilibrium, shifts.", "Conclusion: Summarize uses/limits."]
  const DefaultKeyPoints := ["IS curve meaning and slope.", "LM curve meaning and slope.", "Equilibrium (Y*, i*).", "Fiscal shift (IS).", "Monetary shift (LM)."]
  const DefaultExpectations := ["Correct axes (Y on x, i on y).", "Clear shifts and outcomes.", "Mention assumptions/limits briefly."]
  const DefaultSample1 := "1. Explain IS and LM curves " + "with diagram and equilibrium."
  const DefaultSample2 := "2. Show effect of expansionary " + "fiscal policy in IS-LM."

  /** The block under a heading: the first `cap` lines of the bucket as
      bullets, or the fixed bullets when the bucket is empty. */
  function SectionBlock(bucket: seq<string>, cap: nat, fallback: seq<string>): string {
    if bucket != [] then Bullets(Take(bucket, cap)) else Bullets(fallback)
  }

  /** Sample question `i`, renumbered with `prefix`, or the fixed one. */
  function SampleLine(samples: seq<string>, i: nat, prefix: string, fallback: string): string {
    if |samples| >= i + 1 then prefix + Strip(LStripChars(samples[i], prefix)) else fallback
  }

  /** The lines of the model's answer that the reformat works from. */
  function PyqLinesOf(answer: string): seq<string> {
    NonBlankLines(SplitLines(Strip(answer)))
  }

  /** The pyq reformat: the model's lines sorted into buckets, each shown
      under its fixed heading (capped at 6, 7 and 5 lines) or replaced by
      fixed bullets when empty, then two sample questions. */
  function PyqReformat(answer: string): (r: string)
    ensures StartsWith(r, HeadStructure + "\n")
  {
    var lines := PyqLinesOf(answer);
    var samples := InBucket(lines, Sample);
    var first := Section(HeadStructure, SectionBlock(InBucket(lines, Structure), StructureCap, DefaultStructure));
    var second := Section(HeadKeyPoints, SectionBlock(InBucket(lines, KeyPoint), KeyPointCap, DefaultKeyPoints));
    var third := Section(HeadExpectations, SectionBlock(InBucket(lines, Expectation), ExpectationCap, DefaultExpectations));
    var fourth := Section(HeadSamples, SampleLine(samples, 0, "1. ", DefaultSample1) + "\n" + SampleLine(samples, 1, "2. ", DefaultSample2));
    SectionStartsWithHeading(HeadStructure, SectionBlock(InBucket(lines, Structure), StructureCap, DefaultStructure));
    PrefixSurvives(HeadStructure + "\n", first, "\n\n", second, "\n\n", third, "\n\n", fourth);
    first + "\n\n" + second + "\n\n" + third + "\n\n" + fourth
  }

  // --- the line-by-line shape of the reformatted answer ---

  /** The items shown in one section: the first `cap` of the bucket, or
      the fixed items when the bucket is empty. */
  function Shown(bucket: seq<string>, cap: nat, fallback: seq<string>): (r: seq<string>)
    ensures bucket != [] ==> |r| == Min(|bucket|, cap) && r == bucket[..|r|]
    ensures bucket == [] ==> r == fallback
  {
    if bucket != [] then Take(bucket, cap) else fallback
  }

  function BulletLines(items: seq<string>): (r: seq<string>)
    ensures |r| == |items|
    ensures forall i :: 0 <= i < |items| ==> r[i] == "- " + items[i]
  {
    seq(|items|, i requires 0 <= i < |items| => "- " + items[i])
  }

  /** The reformatted answer as a list of lines: each heading followed by
      its bullet lines, a blank line between sections, and the two sample
      questions under the last heading. */
  function SectionLines(structure: seq<string>, keypoints: seq<string>, expectations: seq<string>,
                        sample1: string, sample2: string): seq<string>
  {
    [HeadStructure] + BulletLines(structure)
    + [""] + ([HeadKeyPoints] + BulletLines(keypoints))
    + [""] + ([HeadExpectations] + BulletLines(expectations))
    + [""] + [HeadSamples, sample1, sample2]
  }

  /** The pyq answer is exactly the lines of `SectionLines` joined by line
      breaks: its four headings, the shown items of each bucket as bullets,
      and the two fixed sample questions, the sample bucket being empty. */
  lemma PyqReformatLines(answer: string)
    ensures var lines := PyqLinesOf(answer);
      PyqReformat(answer) == JoinWith(SectionLines(
        Shown(InBucket(lines, Structure), StructureCap, DefaultStructure),
        Shown(InBucket(lines, KeyPoint), KeyPointCap, DefaultKeyPoints),
        Shown(InBucket(lines, Expectation), ExpectationCap, DefaultExpectations),
        DefaultSample1, DefaultSample2), "\n")
  {
    var lines := PyqLinesOf(answer);
    NoSamples(lines);
    var bs := InBucket(lines, Structure);
    var bk := InBucket(lines, KeyPoint);
    var be := InBucket(lines, Expectation);
    var s := BulletLines(Shown(bs, StructureCap, DefaultStructure));
    var k := BulletLines(Shown(bk, KeyPointCap, DefaultKeyPoints));
    var e := BulletLines(Shown(be, ExpectationCap, DefaultExpectations));
    BlockOfShown(bs, StructureCap, DefaultStructure);
    BlockOfShown(bk, KeyPointCap, DefaultKeyPoints);
    BlockOfShown(be, ExpectationCap, DefaultExpectations);
    JoinSections(HeadStructure, s, HeadKeyPoints, k, HeadExpectations, e, HeadSamples, DefaultSample1, DefaultSample2);
  }

  /** Read back with `splitlines()`, the pyq answer gives exactly the lines
      of `SectionLines`: no model line can break a bullet in two. */
  lemma PyqSplitLines(answer: string)
    ensures var lines := PyqLinesOf(answer);
      SplitLines(PyqReformat(answer)) == SectionLines(
        Shown(InBucket(lines, Structure), StructureCap, DefaultStructure),
        Shown(InBucket(lines, KeyPoint), KeyPointCap, DefaultKeyPoints),
        Shown(InBucket(lines, Expectation), ExpectationCap, DefaultExpectations),
        DefaultSample1, DefaultSample2)
  {
    var lines := PyqLinesOf(answer);
    PyqReformatLines(answer);
    PyqSectionsOneLine(answer);
    SplitLinesJoin(SectionLines(
      Shown(InBucket(lines, Structure), StructureCap, DefaultStructure),
      Shown(InBucket(lines, KeyPoint), KeyPointCap, DefaultKeyPoints),
      Shown(InBucket(lines, Expectation), ExpectationCap, DefaultExpectations),
      DefaultSample1, DefaultSample2));
  }

  lemma PyqSectionsOneLine(answer: string)
    ensures var lines := PyqLinesOf(answer);
      var ls := SectionLines(
        Shown(InBucket(lines, Structure), StructureCap, DefaultStructure),
        Shown(InBucket(lines, KeyPoint), KeyPointCap, DefaultKeyPoints),
        Shown(InBucket(lines, Expectation), ExpectationCap, DefaultExpectations),
        DefaultSample1, DefaultSample2);
      AllOneLine(ls) && ls[|ls| - 1] != ""
  {
    var lines := PyqLinesOf(answer);
    FixedTextsOneLine();
    BucketOneLine(answer, Structure);
    BucketOneLine(answer, KeyPoint);
    BucketOneLine(answer, Expectation);
    ShownOneLine(InBucket(lines, Structure), StructureCap, DefaultStructure);
    ShownOneLine(InBucket(lines, KeyPoint), KeyPointCap, DefaultKeyPoints);
    ShownOneLine(InBucket(lines, Expectation), ExpectationCap, DefaultExpectations);
    SectionLinesOneLine(
      Shown(InBucket(lines, Structure), StructureCap, DefaultStructure),
      Shown(InBucket(lines, KeyPoint), KeyPointCap, DefaultKeyPoints),
      Shown(InBucket(lines, Expectation), ExpectationCap, DefaultExpectations),
      DefaultSample1, DefaultSample2);
  }

  /** Every string of `ls` is a single line. */
  predicate AllOneLine(ls: seq<string>) {
    forall i :: 0 <= i < |ls| ==> NoLineBreak(ls[i])
  }

  lemma AllOneLineAppend(a: seq<string>, b: seq<string>)
    requires AllOneLine(a) && AllOneLine(b)
    ensures AllOneLine(a + b)
  {
    forall i | 0 <= i < |a + b| ensures NoLineBreak((a + b)[i]) {
      if i >= |a| {
        assert (a + b)[i] == b[i - |a|];
      }
    }
  }

  lemma BulletLinesOneLine(items: seq<string>)
    requires AllOneLine(items)
    ensures AllOneLine(BulletLines(items))
  {
    forall i | 0 <= i < |items| ensures NoLineBreak(BulletLines(items)[i]) {
      var b := BulletLines(items)[i];
      assert b == "- " + items[i];
      forall j | 0 <= j < |b| ensures !IsLineBreak(b[j]) {
        if j >= 2 {
          assert b[j] == items[i][j - 2];
        }
      }
    }
  }

  /** The lines of every bucket are single lines. */
  lemma BucketOneLine(answer: string, b: Bucket)
    ensures AllOneLine(InBucket(PyqLinesOf(answer), b))
  {
    var lines := PyqLinesOf(answer);
    assert forall i :: 0 <= i < |lines| ==> lines[i] != "" && NoLineBreak(lines[i]);
  }

  lemma ShownOneLine(bucket: seq<string>, cap: nat, fallback: seq<string>)
    requires AllOneLine(bucket) && AllOneLine(fallback)
    ensures AllOneLine(Shown(bucket, cap, fallback))
  {
    var r := Shown(bucket, cap, fallback);
    if bucket != [] {
      forall i | 0 <= i < |r| ensures NoLineBreak(r[i]) {
        assert r[i] == bucket[i];
      }
    }
  }

  lemma SectionLinesOneLine(s: seq<string>, k: seq<string>, e: seq<string>, s1: string, s2: string)
    requires AllOneLine(s) && AllOneLine(k) && AllOneLine(e)
    requires NoLineBreak(HeadStructure) && NoLineBreak(HeadKeyPoints)
    requires NoLineBreak(HeadExpectations) && NoLineBreak(HeadSamples)
    requires NoLineBreak(s1) && NoLineBreak(s2) && s2 != ""
    ensures AllOneLine(SectionLines(s, k, e, s1, s2))
    ensures var ls := SectionLines(s, k, e, s1, s2); ls[|ls| - 1] != ""
  {
    BulletLinesOneLine(s);
    BulletLinesOneLine(k);
    BulletLinesOneLine(e);
    var x1 := [HeadStructure] + BulletLines(s);
    var x2 := x1 + [""] + ([HeadKeyPoints] + BulletLines(k));
    var x3 := x2 + [""] + ([HeadExpectations] + BulletLines(e));
    var t: seq<string> := [""] + [HeadSamples, s1, s2];
    AllOneLineAppend([HeadStructure], BulletLines(s));
    AllOneLineAppend(x1, [""]);
    AllOneLineAppend([HeadKeyPoints], BulletLines(k));
    AllOneLineAppend(x1 + [""], [HeadKeyPoints] + BulletLines(k));
    AllOneLineAppend(x2, [""]);
    AllOneLineAppend([HeadExpectations], BulletLines(e));
    AllOneLineAppend(x2 + [""], [HeadExpectations] + BulletLines(e));
    AllOneLineAppend(x3, t);
    assert SectionLines(s, k, e, s1, s2) == x3 + t;
  }

  /** The fixed headings, bullets and sample questions are single lines. */
  lemma FixedTextsOneLine()
    ensures NoLineBreak(HeadStructure) && NoLineBreak(HeadKeyPoints)
    ensures NoLineBreak(HeadExpectations) && NoLineBreak(HeadSamples)
    ensures AllOneLine(DefaultStructure) && AllOneLine(DefaultKeyPoints) && AllOneLine(DefaultExpectations)
    ensures NoLineBreak(DefaultSample1) && NoLineBreak(DefaultSample2) && DefaultSample2 != ""
  {
    OneLineHeadStructure();
    OneLineHeadKeyPoints();
    OneLineHeadExpectations();
    OneLineHeadSamples();
    OneLineStructure0();
    OneLineStructure1();
    OneLineStructure2();
    OneLineKeyPoint0();
    OneLineKeyPoint1();
    OneLineKeyPoint2();
    OneLineKeyPoint3();
    OneLineKeyPoint4();
    OneLineExpectation0();
    OneLineExpectation1();
    OneLineExpectation2();
    OneLineSample1();
    OneLineSample2();
  }

  // One lemma per fixed text keeps each check small.
  lemma OneLineHalves(a: string, b: string)
    requires NoLineBreak(a) && NoLineBreak(b)
    ensures NoLineBreak(a + b)
  {
    forall i | |a| <= i < |a + b| ensures !IsLineBreak((a + b)[i]) {
      assert (a + b)[i] == b[i - |a|];
    }
  }

  lemma OneLineHeadStructure() ensures NoLineBreak(HeadStructure) {
    OneLineHeadStructureA();
    OneLineHeadStructureB();
    OneLineHalves("How to structure the answer ", "(Intro/Body/Conclusion):");
  }
  lemma OneLineHeadStructureA() ensures NoLineBreak("How to structure the answer ") {}
  lemma OneLineHeadStructureB() ensures NoLineBreak("(Intro/Body/Conclusion):") {}
  lemma OneLineHeadKeyPoints() ensures NoLineBreak(HeadKeyPoints) {}
  lemma OneLineHeadExpectations() ensures NoLineBreak(HeadExpectations) {}
  lemma OneLineHeadSamples() ensures NoLineBreak(HeadSamples) {}
  lemma OneLineStructure0() ensures NoLineBreak(DefaultStructure[0]) {}
  lemma OneLineStructure1() ensures NoLineBreak(DefaultStructure[1]) {}
  lemma OneLineStructure2() ensures NoLineBreak(DefaultStructure[2]) {}
  lemma OneLineKeyPoint0() ensures NoLineBreak(DefaultKeyPoints[0]) {}
  lemma OneLineKeyPoint1() ensures NoLineBreak(DefaultKeyPoints[1]) {}
  lemma OneLineKeyPoint2() ensures NoLineBreak(DefaultKeyPoints[2]) {}
  lemma OneLineKeyPoint3() ensures NoLineBreak(DefaultKeyPoints[3]) {}
  lemma OneLineKeyPoint4() ensures NoLineBreak(DefaultKeyPoints[4]) {}
  lemma OneLineExpectation0() ensures NoLineBreak(DefaultExpectations[0]) {}
  lemma OneLineExpectation1() ensures NoLineBreak(DefaultExpectations[1]) {}
  lemma OneLineExpectation2() ensures NoLineBreak(DefaultExpectations[2]) {}
  lemma OneLineSample1() ensures NoLineBreak(DefaultSample1) {
    OneLineSample1A();
    OneLineSample1B();
    OneLineHalves("1. Explain IS and LM curves ", "with diagram and equilibrium.");
  }
  lemma OneLineSample1A() ensures NoLineBreak("1. Explain IS and LM curves ") {}
  lemma OneLineSample1B() ensures NoLineBreak("with diagram and equilibrium.") {}
  lemma OneLineSample2() ensures NoLineBreak(DefaultSample2) {
    OneLineSample2A();
    OneLineSample2B();
    OneLineHalves("2. Show effect of expansionary ", "fiscal policy in IS-LM.");
  }
  lemma OneLineSample2A() ensures NoLineBreak("2. Show effect of expansionary ") {}
  lemma OneLineSample2B() ensures NoLineBreak("fiscal policy in IS-LM.") {}

  lemma SectionStartsWithHeading(h: string, x: string)
    ensures StartsWith(Section(h, x), h + "\n")
  {
    assert Section(h, x) == (h + "\n") + x;
    assert ((h + "\n") + x)[..|h + "\n"|] == h + "\n";
  }

  lemma AppendKeepsPrefix(s: string, p: string, t: string)
    requires StartsWith(s, p)
    ensures StartsWith(s + t, p)
  {
    assert (s + t)[..|p|] == s[..|p|];
  }

  lemma PrefixSurvives(p: string, s1: string, s2: string, s3: string, s4: string, s5: string, s6: string, s7: string)
    requires StartsWith(s1, p)
    ensures StartsWith(s1 + s2 + s3 + s4 + s5 + s6 + s7, p)
  {
    AppendKeepsPrefix(s1, p, s2);
    AppendKeepsPrefix(s1 + s2, p, s3);
    AppendKeepsPrefix(s1 + s2 + s3, p, s4);
    AppendKeepsPrefix(s1 + s2 + s3 + s4, p, s5);
    AppendKeepsPrefix(s1 + s2 + s3 + s4 + s5, p, s6);
    AppendKeepsPrefix(s1 + s2 + s3 + s4 + s5 + s6, p, s7);
  }

  /** Sections written as bullet blocks are the bullet lines joined by
      line breaks. */
  lemma {:induction false} BulletsJoin(items: seq<string>)
    requires items != []
    ensures Bullets(items) == JoinWith(BulletLines(items), "\n")
    decreases |items|
  {
    if |items| > 1 {
      BulletsJoin(items[1..]);
      assert BulletLines(items)[1..] == BulletLines(items[1..]);
      assert BulletLines(items)[0] == "- " + items[0];
    }
  }

  lemma BlockOfShown(bucket: seq<string>, cap: nat, fallback: seq<string>)
    requires cap > 0 && fallback != []
    ensures SectionBlock(bucket, cap, fallback) == JoinWith(BulletLines(Shown(bucket, cap, fallback)), "\n")
    ensures BulletLines(Shown(bucket, cap, fallback)) != []
  {
    BulletsJoin(Shown(bucket, cap, fallback));
  }

  /** `JoinWith` over two non-empty runs puts one separator between them. */
  lemma {:induction false} JoinAppend(a: seq<string>, b: seq<string>, sep: string)
    requires a != [] && b != []
    ensures JoinWith(a + b, sep) == JoinWith(a, sep) + sep + JoinWith(b, sep)
    decreases |a|
  {
    if |a| == 1 {
      assert (a + b)[0] == a[0];
      assert (a + b)[1..] == b;
    } else {
      JoinAppend(a[1..], b, sep);
      assert (a + b)[1..] == a[1..] + b;
      assert (a + b)[0] == a[0];
    }
  }

  /** A blank line between two runs becomes an empty line in the text. */
  lemma JoinBlank(x: seq<string>, y: seq<string>)
    requires x != [] && y != []
    ensures JoinWith(x + [""] + y, "\n") == JoinWith(x, "\n") + "\n\n" + JoinWith(y, "\n")
  {
    assert x + [""] + y == x + ([""] + y);
    JoinAppend(x, [""] + y, "\n");
    assert ([""] + y)[1..] == y;
  }

  /** A heading followed by its lines. */
  lemma JoinHead(h: string, b: seq<string>)
    requires b != []
    ensures JoinWith([h] + b, "\n") == Section(h, JoinWith(b, "\n"))
  {
    assert ([h] + b)[1..] == b;
  }

  lemma JoinSections(h1: string, b1: seq<string>, h2: string, b2: seq<string>,
                     h3: string, b3: seq<string>, h4: string, s1: string, s2: string)
    requires b1 != [] && b2 != [] && b3 != []
    ensures JoinWith([h1] + b1 + [""] + ([h2] + b2) + [""] + ([h3] + b3) + [""] + [h4, s1, s2], "\n")
      == Section(h1, JoinWith(b1, "\n")) + "\n\n" + Section(h2, JoinWith(b2, "\n"))
         + "\n\n" + Section(h3, JoinWith(b3, "\n")) + "\n\n" + Section(h4, s1 + "\n" + s2)
  {
    var x1 := [h1] + b1;
    var x2 := x1 + [""] + ([h2] + b2);
    var x3 := x2 + [""] + ([h3] + b3);
    var t: seq<string> := [h4, s1, s2];
    JoinHead(h1, b1);
    JoinHead(h2, b2);
    JoinHead(h3, b3);
    JoinBlank(x1, [h2] + b2);
    JoinBlank(x2, [h3] + b3);
    JoinBlank(x3, t);
    assert JoinWith(t, "\n") == Section(h4, s1 + "\n" + s2) by {
      assert t[1..] == [s1, s2];
      assert t[1..][1..] == [s2];
      assert JoinWith([s2], "\n") == s2;
      assert JoinWith([s1, s2], "\n") == s1 + "\n" + s2;
    }
  }

  // ---------------------------------------------------------------------
  // notes: the key-terms header
  // ---------------------------------------------------------------------

  const NotesHeader := "Key Terms:\n(from model)\n"

  /** The notes answer under its two header lines, ended by a line break. */
  function WrapNotes(answer: string): (r: string)
    ensures StartsWith(r, NotesHeader) && EndsWith(r, "\n")
    ensures |r| == |NotesHeader| + |answer| + 1
  {
    var r := NotesHeader + answer + "\n";
    assert r[..|NotesHeader|] == NotesHeader;
    assert r[|r| - 1..] == "\n";
    r
  }

  /** The inverse of `WrapNotes`: the text between the header and the final
      line break, or None when `s` is not a wrapped notes answer. */
  function UnwrapNotes(s: string): (r: Option<string>)
    ensures r.Some? ==> |r.value| == |s| - |NotesHeader| - 1
  {
    if |s| >= |NotesHeader| + 1 && StartsWith(s, NotesHeader) && EndsWith(s, "\n")
    then Some(s[|NotesHeader|..|s| - 1])
    else None
  }

  lemma UnwrapWrapNotes(answer: string)
    ensures UnwrapNotes(WrapNotes(answer)) == Some(answer)
  {
    var r := WrapNotes(answer);
    assert r[|NotesHeader|..|r| - 1] == answer;
  }

  lemma WrapUnwrapNotes(s: string)
    requires UnwrapNotes(s).Some?
    ensures WrapNotes(UnwrapNotes(s).value) == s
  {
    var a := UnwrapNotes(s).value;
    assert s == s[..|NotesHeader|] + a + s[|s| - 1..];
  }

  // ---------------------------------------------------------------------
  // the whole post-processing step
  // ---------------------------------------------------------------------

  /** The model's text with its reasoning blocks removed and surrounding
      whitespace stripped; the second strip changes nothing. */
  function CleanAnswer(raw: string): (r: string)
    ensures r == StripThinkBlocks(raw)
    ensures NoEdgeSpace(r) && !ContainsCI(r, Opener)
  {
    StripOfStripped(StripThinkBlocks(raw));
    Strip(StripThinkBlocks(raw))
  }

  /** The answer shown for the model's raw text in the given mode. */
  function FinalAnswer(mode: Mode, raw: string): (r: string)
    ensures mode == Mcq ==> ContainsCI(r, AnswerKeyPhrase)
    ensures mode == Mcq && ContainsCI(CleanAnswer(raw), AnswerKeyPhrase) ==> r == CleanAnswer(raw)
    ensures mode == Notes ==> UnwrapNotes(r) == Some(CleanAnswer(raw))
    ensures mode == Pyq ==> StartsWith(r, HeadStructure + "\n")
    ensures mode in {Explain, Numerical, Exam} ==> r == CleanAnswer(raw) && !ContainsCI(r, Opener)
  {
    var a := CleanAnswer(raw);
    match mode
    case Mcq => EnsureAnswerKey(a)
    case Pyq => PyqReformat(a)
    case Notes => UnwrapWrapNotes(a); WrapNotes(a)
    case _ => a
  }

  /** Stripping the model's answer and then post-processing it once more
      in mcq mode changes nothing. */
  lemma McqFinalStable(raw: string)
    ensures EnsureAnswerKey(FinalAnswer(Mcq, raw)) == FinalAnswer(Mcq, raw)
  {
  }
}

=== FILE: cli.dfy ===
/** The bot's command loop as a pure state machine: parsing a typed line,
    the configuration commands, slash-command extraction, the generation
    request planned for a question, and the invariant the session keeps. */
module Cli {
  import opened Optional
  import opened Str
  import opened Utils
  import opened Prompts

  // ---------------------------------------------------------------------
  // parse_command
  // ---------------------------------------------------------------------

  /** A command word (lower-cased) and its stripped argument. */
  datatype Command = Command(name: string, arg: string)

  /** `parse_command(line)`: None for a blank line, otherwise the first
      whitespace-separated token lower-cased, and the stripped rest. */
  function ParseCommand(line: string): (r: Option<Command>)
    ensures r.None? <==> AllSpace(line)
    ensures r.Some? ==>
      var t := Strip(line);
      var n := |r.value.name|;
      && n <= |t| && IsWord(t[..n]) && r.value.name == Lower(t[..n])
      && (n < |t| ==> IsSpace(t[n]))
      && r.value.arg == Strip(t[n..])
    ensures r.Some? ==> IsWord(r.value.name) && NoEdgeSpace(r.value.arg)
  {
    var t := Strip(line);
    if t == [] then None
    else
      var n := SpanNonSpace(t);
      LowerKeepsWord(t[..n]);
      Some(Command(Lower(t[..n]), Strip(t[n..])))
  }

  lemma LowerKeepsWord(w: string)
    requires IsWord(w)
    ensures IsWord(Lower(w))
  {
    var l := Lower(w);
    forall i | 0 <= i < |l| ensures !IsSpace(l[i]) {
      assert l[i] == LowerChar(w[i]);
    }
  }

  /** A command typed on its own parses to that command with no argument. */
  lemma ParseBareCommand(word: string)
    requires IsWord(word)
    ensures ParseCommand(word) == Some(Command(Lower(word), ""))
  {
    StripOfStripped(word);
    SpanOfWord(word, "");
    assert word + "" == word;
    assert word[..|word|] == word;
  }

  /** A command word, one space and an argument parse back to the word
      (lower-cased) and the argument. */
  lemma ParseCommandWithArg(word: string, arg: string)
    requires IsWord(word) && arg != "" && NoEdgeSpace(arg)
    ensures ParseCommand(word + " " + arg) == Some(Command(Lower(word), arg))
  {
    var line := word + " " + arg;
    assert line == word + (" " + arg);
    assert line[0] == word[0] && line[|line| - 1] == arg[|arg| - 1];
    StripOfStripped(line);
    SpanOfWord(word, " " + arg);
    assert line[..|word|] == word;
    assert line[|word|..] == " " + arg;
    StripAfterSpace(arg);
  }

  lemma StripAfterSpace(arg: string)
    requires arg != "" && NoEdgeSpace(arg)
    ensures Strip(" " + arg) == arg
  {
    var s := " " + arg;
    assert s[1..] == arg;
    assert LeadingSpaces(arg) == 0;
    assert LeadingSpaces(s) == 1;
    assert s[|s| - 1] == arg[|arg| - 1];
    assert TrailingStart(s) == |s|;
  }

  // ---------------------------------------------------------------------
  // The session
  // ---------------------------------------------------------------------

  /** What the loop keeps between lines: the configuration, the chat
      history and the name of the hosted model. */
  datatype Session = Session(cfg: BotConfig, history: seq<Message>, model: string)

  /** Turns of history kept for the chat modes. */
  const HistoryTurns := 6

  predicate ValidMarks(m: int) {
    m == 2 || m == 5 || m == 10
  }

  /** The only messages the loop ever records: the user's non-empty
      questions. */
  function UserMessage(question: string): Message {
    Message(Some("user"), Some(question))
  }

  predicate IsUserQuestion(m: Message) {
    m.role == Some("user") && m.content.Some? && m.content.value != ""
  }

  /** The session invariant: marks is 2, 5 or 10, and the history holds at
      most six turns of the user's own questions. */
  predicate Inv(s: Session) {
    && ValidMarks(s.cfg.marks)
    && |s.history| <= 2 * HistoryTurns
    && forall i :: 0 <= i < |s.history| ==> IsUserQuestion(s.history[i])
  }

  /** The session at start-up: explain mode, 5 marks, no topic, no history,
      and the model named by the environment. */
  function InitialSession(model: string): (s: Session)
    ensures Inv(s)
    ensures s.cfg.mode == Explain && s.cfg.marks == 5 && s.cfg.topic == "" && s.history == []
  {
    Session(DefaultConfig, [], model)
  }

  // ---------------------------------------------------------------------
  // Generation requests
  // ---------------------------------------------------------------------

  /** The prompt sent to the model. The three slash-mode prompt builders
      are not part of this model; their calls are kept as data. */
  datatype Prompt =
    | NotesFill(topic: string, marks: int)
    | McqFill(topic: string)
    | PyqFill(topic: string)
    | Chat(text: string)

  /** A generation request; the temperature is in hundredths. */
  datatype Request = Request(prompt: Prompt, maxNewTokens: nat, temperature: nat)

  /** Token budget per mode: notes by marks (260, 360, otherwise 520),
      mcq and pyq 520, every other mode 300. */
  function TokenBudget(mode: Mode, marks: int): (n: nat)
    ensures 260 <= n <= 520
    ensures mode == Mcq || mode == Pyq ==> n == 520
    ensures mode == Explain || mode == Numerical || mode == Exam ==> n == 300
    ensures mode == Notes ==> (n == 260 <==> marks == 2) && (n == 360 <==> marks == 5)
    ensures mode == Notes && marks != 2 && marks != 5 ==> n == 520
  {
    match mode
    case Notes => if marks == 2 then 260 else if marks == 5 then 360 else 520
    case Mcq => 520
    case Pyq => 520
    case _ => 300
  }

  /** More marks never give notes a smaller budget. */
  lemma NotesBudgetGrowsWithMarks(a: int, b: int)
    requires ValidMarks(a) && ValidMarks(b) && a < b
    ensures TokenBudget(Notes, a) < TokenBudget(Notes, b)
  {
  }

  /** Temperature in hundredths: 0.15 for notes and pyq, 0.10 for mcq,
      0.2 for the chat modes. */
  function Temperature(mode: Mode): (t: nat)
    ensures 10 <= t <= 20
    ensures t == 10 <==> mode == Mcq
  {
    match mode
    case Notes => 15
    case Mcq => 10
    case Pyq => 15
    case _ => 20
  }

  predicate IsChatMode(mode: Mode) {
    mode == Explain || mode == Numerical || mode == Exam
  }

  /** The chat history after a question: the question recorded and the
      history clamped to six turns. */
  function ChatHistory(history: seq<Message>, question: string): (h: seq<Message>)
    ensures h == ClampChatHistory(history + [UserMessage(question)], HistoryTurns)
    ensures |h| > 0 && h[|h| - 1] == UserMessage(question)
    ensures h[..|h| - 1] == history[|history| - (|h| - 1)..]
  {
    var all := history + [UserMessage(question)];
    var h := ClampChatHistory(all, HistoryTurns);
    ClampedTail(history, UserMessage(question), h);
    h
  }

  lemma ClampedTail(history: seq<Message>, m: Message, h: seq<Message>)
    requires h == ClampChatHistory(history + [m], HistoryTurns)
    ensures |h| > 0 && h[|h| - 1] == m
    ensures h[..|h| - 1] == history[|history| - (|h| - 1)..]
  {
    var all := history + [m];
    var k := |all| - |h|;
    assert h == all[k..];
    assert h[..|h| - 1] == all[k..|all| - 1];
    assert all[k..|all| - 1] == history[k..];
  }

  /** The chat prompt: the summary of the earlier messages, then the
      question as the user's turn and an open assistant turn. */
  function ChatPrompt(context: string, question: string): (text: string)
    ensures StartsWith(text, context)
    ensures EndsWith(text, "\nUser: " + question + "\nAssistant:")
    ensures |text| == |context| + |"\nUser: " + question + "\nAssistant:"|
  {
    var ending := "\nUser: " + question + "\nAssistant:";
    var text := context + ending;
    assert text[..|context|] == context;
    assert text[|text| - |ending|..] == ending;
    text
  }

  /** The request for a question and the history after it: the slash modes
      use their own prompt and leave the history alone; the chat modes
      record the question, clamp the history to six turns and prompt with
      a summary of the earlier messages. */
  function PlanRequest(cfg: BotConfig, history: seq<Message>, question: string): (r: (seq<Message>, Request))
    ensures r.1.maxNewTokens == TokenBudget(cfg.mode, cfg.marks)
    ensures r.1.temperature == Temperature(cfg.mode)
    ensures cfg.mode == Notes ==> r.1.prompt == NotesFill(question, cfg.marks)
    ensures cfg.mode == Mcq ==> r.1.prompt == McqFill(question)
    ensures cfg.mode == Pyq ==> r.1.prompt == PyqFill(question)
    ensures !IsChatMode(cfg.mode) ==> r.0 == history
    ensures IsChatMode(cfg.mode) ==>
      && r.0 == ChatHistory(history, question)
      && r.1.prompt == Chat(ChatPrompt(SummarizeContext(r.0[..|r.0| - 1]), question))
  {
    var budget := TokenBudget(cfg.mode, cfg.marks);
    var temperature := Temperature(cfg.mode);
    match cfg.mode
    case Notes => (history, Request(NotesFill(question, cfg.marks), budget, temperature))
    case Mcq => (history, Request(McqFill(question), budget, temperature))
    case Pyq => (history, Request(PyqFill(question), budget, temperature))
    case _ =>
      var h := ChatHistory(history, question);
      (h, Request(Chat(ChatPrompt(SummarizeContext(h[..|h| - 1]), question)), budget, temperature))
  }

  /** In the chat modes only the last eight messages of the history shape
      the request. */
  lemma ChatRequestUsesRecentHistory(cfg: BotConfig, history: seq<Message>, question: string)
    requires IsChatMode(cfg.mode) && |history| >= SummaryWindow
    ensures PlanRequest(cfg, history, question).1
         == PlanRequest(cfg, history[|history| - SummaryWindow..], question).1
  {
    var recent := history[|history| - SummaryWindow..];
    ChatContextOfRecent(history, question);
    assert SummarizeContext(ChatHistory(history, question)[..|ChatHistory(history, question)| - 1])
        == SummarizeContext(ChatHistory(recent, question)[..|ChatHistory(recent, question)| - 1]);
  }

  lemma ChatContextOfRecent(history: seq<Message>, question: string)
    requires |history| >= SummaryWindow
    ensures var h := ChatHistory(history, question);
      var h8 := ChatHistory(history[|history| - SummaryWindow..], question);
      SummarizeContext(h[..|h| - 1]) == SummarizeContext(h8[..|h8| - 1])
  {
    var recent := history[|history| - SummaryWindow..];
    var h := ChatHistory(history, question);
    var h8 := ChatHistory(recent, question);
    var before := h[..|h| - 1];
    assert |h| == Min(|history| + 1, 2 * HistoryTurns);
    assert before == history[|history| - |before|..];
    assert before == before[..|before| - SummaryWindow] + recent;
    SummaryIgnoresOlder(before[..|before| - SummaryWindow], recent);
    assert |h8| == SummaryWindow + 1;
    assert h8[..|h8| - 1] == recent[|recent| - SummaryWindow..] == recent;
  }

  /** The chat prompt's context is the summary of the whole history before
      the question: clamping keeps at least the eight messages it reads. */
  lemma ChatContextIsSummary(history: seq<Message>, question: string)
    ensures var h := ChatHistory(history, question);
      SummarizeContext(h[..|h| - 1]) == SummarizeContext(history)
  {
    var h := ChatHistory(history, question);
    var before := h[..|h| - 1];
    assert |h| == Min(|history| + 1, 2 * HistoryTurns);
    if |before| < |history| {
      assert history == history[..|history| - |before|] + before;
      SummaryIgnoresOlder(history[..|history| - |before|], before);
    } else {
      assert before == history;
    }
  }

  // ---------------------------------------------------------------------
  // Slash commands
  // ---------------------------------------------------------------------

  /** A slash command: the mode it selects and the question after the tag. */
  datatype Slash = Slash(mode: Mode, question: string)

  /** The line starts with `tag` and a space. */
  predicate TagPrefix(userIn: string, tag: string) {
    StartsWith(userIn, tag + " ")
  }

  /** The three tags differ in their second character, so a line starts
      with at most one of them. */
  lemma TagLetter(userIn: string)
    ensures TagMatches(userIn, "/notes") ==> |userIn| > 1 && userIn[1] == 'n'
    ensures TagMatches(userIn, "/mcq") ==> |userIn| > 1 && userIn[1] == 'm'
    ensures TagMatches(userIn, "/pyq") ==> |userIn| > 1 && userIn[1] == 'p'
  {
    TagLetterOf(userIn, "/notes");
    TagLetterOf(userIn, "/mcq");
    TagLetterOf(userIn, "/pyq");
  }

  lemma TagLetterOf(userIn: string, tag: string)
    requires |tag| > 1
    ensures TagMatches(userIn, tag) ==> |userIn| > 1 && userIn[1] == tag[1]
  {
    if TagPrefix(userIn, tag) {
      assert userIn[1] == userIn[..|tag + " "|][1] == (tag + " ")[1];
    }
  }

  /** The slash extraction as written: a tag counts only when a space
      follows it, and the question is the stripped text after the tag.
      Since the line is already stripped, a line matching a tag always
      has text after it, and a bare tag is not a slash command at all. */
  function ExtractSlashAsWritten(userIn: string): (r: Option<Slash>)
    ensures r.Some? ==> r.value.mode == Notes || r.value.mode == Mcq || r.value.mode == Pyq
    ensures r.Some? ==> NoEdgeSpace(r.value.question)
    ensures r.None? <==> !TagPrefix(userIn, "/notes") && !TagPrefix(userIn, "/mcq") && !TagPrefix(userIn, "/pyq")
    ensures TagPrefix(userIn, "/notes") ==> r == Some(Slash(Notes, Strip(userIn[|"/notes"|..])))
    ensures TagPrefix(userIn, "/mcq") ==> r == Some(Slash(Mcq, Strip(userIn[|"/mcq"|..])))
    ensures TagPrefix(userIn, "/pyq") ==> r == Some(Slash(Pyq, Strip(userIn[|"/pyq"|..])))
  {
    TagLetter(userIn);
    if TagPrefix(userIn, "/notes") then Some(Slash(Notes, Strip(userIn[6..])))
    else if TagPrefix(userIn, "/mcq") then Some(Slash(Mcq, Strip(userIn[4..])))
    else if TagPrefix(userIn, "/pyq") then Some(Slash(Pyq, Strip(userIn[4..])))
    else None
  }

  /** A line that is exactly `tag`, or `tag` followed by a space. */
  predicate TagMatches(userIn: string, tag: string) {
    userIn == tag || TagPrefix(userIn, tag)
  }

  /** The slash extraction with a bare tag also recognised, so that it
      selects its mode and reaches the missing-question rejection. */
  function ExtractSlash(userIn: string): (r: Option<Slash>)
    ensures r.Some? ==> r.value.mode == Notes || r.value.mode == Mcq || r.value.mode == Pyq
    ensures r.Some? ==> NoEdgeSpace(r.value.question)
    ensures r.Some? && r.value.mode == Notes ==> TagMatches(userIn, "/notes")
    ensures r.Some? && r.value.mode == Mcq ==> TagMatches(userIn, "/mcq")
    ensures r.Some? && r.value.mode == Pyq ==> TagMatches(userIn, "/pyq")
    ensures r.None? <==> !TagMatches(userIn, "/notes") && !TagMatches(userIn, "/mcq") && !TagMatches(userIn, "/pyq")
    ensures TagMatches(userIn, "/notes") ==> r == Some(Slash(Notes, Strip(userIn[|"/notes"|..])))
    ensures TagMatches(userIn, "/mcq") ==> r == Some(Slash(Mcq, Strip(userIn[|"/mcq"|..])))
    ensures TagMatches(userIn, "/pyq") ==> r == Some(Slash(Pyq, Strip(userIn[|"/pyq"|..])))
  {
    TagLetter(userIn);
    if TagMatches(userIn, "/notes") then Some(Slash(Notes, Strip(userIn[6..])))
    else if TagMatches(userIn, "/mcq") then Some(Slash(Mcq, Strip(userIn[4..])))
    else if TagMatches(userIn, "/pyq") then Some(Slash(Pyq, Strip(userIn[4..])))
    else None
  }

  /** As written, a stripped non-empty line never yields an empty
      question, so the missing-question rejection cannot fire. */
  lemma AsWrittenNeverRejects(userIn: string)
    requires NoEdgeSpace(userIn)
    ensures ExtractSlashAsWritten(userIn).Some? ==> ExtractSlashAsWritten(userIn).value.question != ""
  {
    if TagPrefix(userIn, "/notes") {
      StrippedTailNonEmpty(userIn, 6);
    } else if TagPrefix(userIn, "/mcq") || TagPrefix(userIn, "/pyq") {
      StrippedTailNonEmpty(userIn, 4);
    }
  }

  lemma StrippedTailNonEmpty(u: string, k: nat)
    requires k < |u| && NoEdgeSpace(u)
    ensures Strip(u[k..]) != ""
  {
    var rest := u[k..];
    assert rest[|rest| - 1] == u[|u| - 1];
    assert !AllSpace(rest);
  }

  /** As written, a bare tag is not a slash command: the line `/notes`
      is sent to the model as the question in the current mode. */
  lemma BareTagAsWritten()
    ensures ExtractSlashAsWritten("/notes") == None
    ensures ExtractSlashAsWritten("/mcq") == None
    ensures ExtractSlashAsWritten("/pyq") == None
  {
    TagMismatch("/notes", "/notes", "/mcq");
    TagMismatch("/notes", "/notes", "/pyq");
    TagMismatch("/mcq", "/mcq", "/notes");
    TagMismatch("/mcq", "/mcq", "/pyq");
    TagMismatch("/pyq", "/pyq", "/notes");
    TagMismatch("/pyq", "/pyq", "/mcq");
  }

  /** The corrected extraction turns a bare tag into its mode with an empty
      question. */
  lemma BareTagRejected()
    ensures ExtractSlash("/notes") == Some(Slash(Notes, ""))
    ensures ExtractSlash("/mcq") == Some(Slash(Mcq, ""))
    ensures ExtractSlash("/pyq") == Some(Slash(Pyq, ""))
  {
    assert "/notes"[6..] == "";
    assert "/mcq"[4..] == "";
    assert "/pyq"[4..] == "";
    TagMismatch("/mcq", "/mcq", "/notes");
    TagMismatch("/pyq", "/pyq", "/notes");
    TagMismatch("/pyq", "/pyq", "/mcq");
  }

  /** A line that starts with one tag does not match a tag whose second
      character differs. */
  lemma TagMismatch(line: string, tag: string, t: string)
    requires StartsWith(line, tag) && |tag| > 1 && |t| > 1 && tag[1] != t[1]
    ensures !TagMatches(line, t)
  {
    assert line[1] == tag[1];
    assert (t + " ")[1] == t[1];
  }

  /** On every other line the two extractions agree. */
  lemma ExtractAgreesAwayFromBareTags(userIn: string)
    requires userIn != "/notes" && userIn != "/mcq" && userIn != "/pyq"
    ensures ExtractSlash(userIn) == ExtractSlashAsWritten(userIn)
  {
  }

  // ---------------------------------------------------------------------
  // One line of input
  // ---------------------------------------------------------------------

  /** What the loop does with a line, as the user sees it. */
  datatype Outcome =
    | Skip
    | ShowHelp
    | Quit
    | HistoryCleared
    | MarksSet(marks: int)
    | MarksOutOfRange
    | MarksNotNumber
    | TopicSet(topic: string)
    | ModelSet(name: string)
    | ModelNameMissing
    | ModeSet(mode: Mode)
    | ModeInvalid
    | QuestionMissing
    | Ask(question: string, request: Request)

  /** A question line, given the slash command read from it (if any): the
      selected mode, the missing-question rejection, and the request. */
  function AskFor(s: Session, userIn: string, slash: Option<Slash>): (r: (Session, Outcome))
    requires NoEdgeSpace(userIn)
    requires slash.Some? ==> NoEdgeSpace(slash.value.question)
    ensures r.0.cfg.marks == s.cfg.marks && r.0.cfg.topic == s.cfg.topic && r.0.model == s.model
    ensures r.1 == QuestionMissing || r.1.Ask?
    ensures r.1.Ask? ==> r.1.question != "" && NoEdgeSpace(r.1.question)
    ensures r.1.Ask? ==> (r.0.history == s.history || r.0.history == ChatHistory(s.history, r.1.question))
    ensures r.1 == QuestionMissing ==> r.0.history == s.history
    ensures r.1.Ask? ==> (r.0.history, r.1.request) == PlanRequest(r.0.cfg, s.history, r.1.question)
    ensures slash.Some? ==>
      && r.0.cfg.mode == slash.value.mode
      && (r.1 == QuestionMissing <==> slash.value.question == "")
      && (r.1.Ask? ==> r.1.question == slash.value.question)
    ensures slash.None? ==>
      && r.0.cfg.mode == s.cfg.mode
      && (r.1 == QuestionMissing <==> userIn == "")
      && (r.1.Ask? ==> r.1.question == userIn)
  {
    var mode := if slash.Some? then slash.value.mode else s.cfg.mode;
    var question := if slash.Some? then slash.value.question else userIn;
    var cfg := s.cfg.(mode := mode);
    if question == "" then (s.(cfg := cfg), QuestionMissing)
    else
      var plan := PlanRequest(cfg, s.history, question);
      (Session(cfg, plan.0, s.model), Ask(question, plan.1))
  }

  /** A line that is neither blank nor a command, with the slash extraction
      as written: a non-empty line is always asked, and the mode changes
      only through a tag followed by a space. */
  function AskQuestion(s: Session, userIn: string): (r: (Session, Outcome))
    requires NoEdgeSpace(userIn)
    ensures r.0.cfg.marks == s.cfg.marks && r.0.cfg.topic == s.cfg.topic && r.0.model == s.model
    ensures r.1 == QuestionMissing || r.1.Ask?
    ensures userIn != "" ==> r.1.Ask?
    ensures r.1.Ask? ==> r.1.question != "" && NoEdgeSpace(r.1.question)
    ensures r.1.Ask? ==> (r.0.history == s.history || r.0.history == ChatHistory(s.history, r.1.question))
    ensures r.0.cfg.mode != s.cfg.mode ==> ExtractSlashAsWritten(userIn).Some?
    ensures r.1.Ask? ==> (r.0.history, r.1.request) == PlanRequest(r.0.cfg, s.history, r.1.question)
  {
    AsWrittenNeverRejects(userIn);
    AskFor(s, userIn, ExtractSlashAsWritten(userIn))
  }

  /** The command words the loop acts on. */
  predicate IsCommandName(name: string) {
    name == "help" || name == "?" || name == "exit" || name == "clear"
    || name == "marks" || name == "topic" || name == "model" || name == "mode"
  }

  /** The configuration commands, matched in the loop's order; None when
      the command word is none of them. */
  function RunCommand(s: Session, c: Command): (r: Option<(Session, Outcome)>)
    ensures r.None? <==> !IsCommandName(c.name)
    ensures c.name == "help" || c.name == "?" ==> r == Some((s, ShowHelp))
    ensures c.name == "exit" ==> r == Some((s, Quit))
    ensures c.name == "clear" ==> r == Some((s.(history := []), HistoryCleared))
    ensures c.name == "model" ==> r == Some(if c.arg == "" then (s, ModelNameMissing) else (s.(model := c.arg), ModelSet(c.arg)))
    ensures r.Some? ==> r.value.1 != Skip && r.value.1 != QuestionMissing && !r.value.1.Ask?
    ensures r.Some? && r.value.0.cfg.marks != s.cfg.marks ==> r.value.1 == MarksSet(r.value.0.cfg.marks) && ValidMarks(r.value.0.cfg.marks)
    ensures r.Some? && r.value.0.cfg.topic != s.cfg.topic ==> r.value.1 == TopicSet(r.value.0.cfg.topic)
    ensures r.Some? && r.value.0.model != s.model ==> r.value.1 == ModelSet(r.value.0.model) && r.value.0.model != ""
    ensures r.Some? && r.value.0.cfg.mode != s.cfg.mode ==> r.value.1 == ModeSet(r.value.0.cfg.mode)
    ensures r.Some? && r.value.0.history != s.history ==> r.value.1 == HistoryCleared && r.value.0.history == []
    ensures r.Some? && (r.value.1 == ShowHelp || r.value.1 == Quit) ==> r.value.0 == s
    ensures r.Some? && r.value.1 == Quit ==> c.name == "exit"
    ensures r.Some? && r.value.1 == ShowHelp ==> c.name == "help" || c.name == "?"
    ensures r.Some? && r.value.1 == HistoryCleared ==> c.name == "clear"
  {
    if c.name == "help" || c.name == "?" then Some((s, ShowHelp))
    else if c.name == "exit" then Some((s, Quit))
    else if c.name == "clear" then Some((s.(history := []), HistoryCleared))
    else if c.name == "marks" then
      Some(match ParseInt(c.arg)
        case None => (s, MarksNotNumber)
        case Some(m) =>
          if ValidMarks(m) then (s.(cfg := s.cfg.(marks := m)), MarksSet(m))
          else (s, MarksOutOfRange))
    else if c.name == "topic" then Some((s.(cfg := s.cfg.(topic := c.arg)), TopicSet(c.arg)))
    else if c.name == "model" then
      Some(if c.arg == "" then (s, ModelNameMissing) else (s.(model := c.arg), ModelSet(c.arg)))
    else if c.name == "mode" then
      Some(match ParseMode(Lower(c.arg))
        case None => (s, ModeInvalid)
        case Some(m) => (s.(cfg := s.cfg.(mode := m)), ModeSet(m)))
    else None
  }

  /** One line of input: blank lines are skipped, the configuration
      commands come next, and anything else is a question (slash extraction
      as written). */
  function Step(s: Session, line: string): (r: (Session, Outcome))
    ensures r.1 == Skip <==> AllSpace(line)
    ensures r.1 == Skip || r.1 == ShowHelp || r.1 == Quit ==> r.0 == s
    ensures r.0.cfg.marks != s.cfg.marks ==> r.1 == MarksSet(r.0.cfg.marks) && ValidMarks(r.0.cfg.marks)
    ensures r.0.cfg.topic != s.cfg.topic ==> r.1 == TopicSet(r.0.cfg.topic)
    ensures r.0.model != s.model ==> r.1 == ModelSet(r.0.model) && r.0.model != ""
    ensures r.0.cfg.mode != s.cfg.mode ==>
      r.1 == ModeSet(r.0.cfg.mode) || r.1 == QuestionMissing || r.1.Ask?
    ensures r.0.history != s.history ==> r.1 == HistoryCleared || r.1.Ask?
  {
    var userIn := Strip(line);
    if userIn == "" then (s, Skip) else Dispatch(s, userIn, false)
  }

  /** A non-blank stripped line: a configuration command, else a question,
      with the slash extraction as written or, when `corrected`, with a bare
      tag recognised too. */
  function Dispatch(s: Session, userIn: string, corrected: bool): (r: (Session, Outcome))
    requires userIn != "" && NoEdgeSpace(userIn)
    ensures r.1 != Skip
    ensures r.1 == ShowHelp || r.1 == Quit ==> r.0 == s
    ensures r.0.cfg.marks != s.cfg.marks ==> r.1 == MarksSet(r.0.cfg.marks) && ValidMarks(r.0.cfg.marks)
    ensures r.0.cfg.topic != s.cfg.topic ==> r.1 == TopicSet(r.0.cfg.topic)
    ensures r.0.model != s.model ==> r.1 == ModelSet(r.0.model) && r.0.model != ""
    ensures r.0.cfg.mode != s.cfg.mode ==>
      r.1 == ModeSet(r.0.cfg.mode) || r.1 == QuestionMissing || r.1.Ask?
    ensures r.0.history != s.history ==> r.1 == HistoryCleared || r.1.Ask?
  {
    assert !IsSpace(userIn[0]);
    var command := RunCommand(s, ParseCommand(userIn).value);
    if command.Some? then command.value
    else if corrected then AskFor(s, userIn, ExtractSlash(userIn))
    else AskQuestion(s, userIn)
  }

  /** A line quits exactly when its command word is `exit`, whatever
      follows it; it shows the help exactly for `help` or `?`, and clears
      the history, and nothing else, exactly for `clear`. */
  lemma StepOutcomes(s: Session, line: string)
    ensures var r := Step(s, line);
      && (r.1 == Quit <==> ParseCommand(line).Some? && ParseCommand(line).value.name == "exit")
      && (r.1 == ShowHelp <==>
          ParseCommand(line).Some? && (ParseCommand(line).value.name == "help" || ParseCommand(line).value.name == "?"))
      && (r.1 == HistoryCleared <==> ParseCommand(line).Some? && ParseCommand(line).value.name == "clear")
      && (r.1 == HistoryCleared ==> r.0 == s.(history := []))
  {
    var userIn := Strip(line);
    StripIdempotent(line);
    if userIn != "" {
      assert !IsSpace(userIn[0]);
      var c := ParseCommand(userIn).value;
      var command := RunCommand(s, c);
      if command.None? {
        assert Step(s, line) == AskQuestion(s, userIn);
      }
    }
  }

  /** One line of input with the corrected slash extraction: it differs from
      `Step` only on a bare tag, which selects its mode and is rejected. */
  function StepCorrected(s: Session, line: string): (r: (Session, Outcome))
    ensures r.1 == Skip <==> AllSpace(line)
    ensures r.0.cfg.marks != s.cfg.marks ==> r.1 == MarksSet(r.0.cfg.marks) && ValidMarks(r.0.cfg.marks)
    ensures r.0.history != s.history ==> r.1 == HistoryCleared || r.1.Ask?
  {
    var userIn := Strip(line);
    if userIn == "" then (s, Skip) else Dispatch(s, userIn, true)
  }

  /** Every step keeps the session invariant. */
  lemma StepPreservesInv(s: Session, line: string)
    requires Inv(s)
    ensures Inv(Step(s, line).0)
  {
    var userIn := Strip(line);
    if userIn != "" {
      assert !IsSpace(userIn[0]);
      if RunCommand(s, ParseCommand(userIn).value).None? {
        AskPreservesInv(s, userIn, ExtractSlashAsWritten(userIn));
      }
      assert Step(s, line) == Dispatch(s, userIn, false);
    }
  }

  lemma AskPreservesInv(s: Session, userIn: string, slash: Option<Slash>)
    requires Inv(s) && NoEdgeSpace(userIn)
    requires slash.Some? ==> NoEdgeSpace(slash.value.question)
    ensures Inv(AskFor(s, userIn, slash).0)
  {
    var r := AskFor(s, userIn, slash);
    if r.1.Ask? && r.0.history != s.history {
      ClampKeepsUserQuestions(s.history, r.1.question);
    }
  }

  lemma ClampKeepsUserQuestions(history: seq<Message>, q: string)
    requires forall i :: 0 <= i < |history| ==> IsUserQuestion(history[i])
    requires q != ""
    ensures var h := ChatHistory(history, q);
      |h| <= 2 * HistoryTurns && forall i :: 0 <= i < |h| ==> IsUserQuestion(h[i])
  {
    var all := history + [UserMessage(q)];
    var h := ClampChatHistory(all, HistoryTurns);
    forall i | 0 <= i < |h| ensures IsUserQuestion(h[i]) {
      assert h[i] == all[|all| - |h| + i];
    }
  }

  /** The read-eval loop: feeds `lines` one by one to `step` (the program
      passes `Step`) up to and including the line that quits, and returns
      the final session and one outcome per line read. */
  function Run(s: Session, lines: seq<string>, step: (Session, string) -> (Session, Outcome)): (r: (Session, seq<Outcome>))
    ensures |r.1| <= |lines|
    ensures forall i :: 0 <= i < |r.1| - 1 ==> r.1[i] != Quit
    ensures |r.1| < |lines| ==> |r.1| > 0 && r.1[|r.1| - 1] == Quit
    decreases |lines|
  {
    if lines == [] then (s, [])
    else
      var next := step(s, lines[0]);
      if next.1 == Quit then (next.0, [Quit])
      else
        var rest := Run(next.0, lines[1..], step);
        var out := [next.1] + rest.1;
        assert forall i :: 1 <= i < |out| ==> out[i] == rest.1[i - 1];
        (rest.0, out)
  }

  /** The invariant holds after any sequence of lines from a session where
      it holds, in particular from the start-up session. */
  lemma {:induction false} RunPreservesInv(s: Session, lines: seq<string>)
    requires Inv(s)
    ensures Inv(Run(s, lines, Step).0)
    decreases |lines|
  {
    if lines != [] {
      StepPreservesInv(s, lines[0]);
      RunPreservesInv(Step(s, lines[0]).0, lines[1..]);
    }
  }

  /** Reading one line is one step. */
  lemma RunOne(s: Session, line: string, step: (Session, string) -> (Session, Outcome))
    ensures Run(s, [line], step) == (step(s, line).0, [step(s, line).1])
  {
    var next := step(s, line);
    assert [line][1..] == [];
    assert Run(next.0, [], step) == (next.0, []);
    assert [next.1] + [] == [next.1];
  }

  /** Feeding `a` then `b` is feeding `a`, then `b` from where `a` left the
      session, unless a line of `a` quit, which ends the loop there. */
  lemma {:induction false} RunAppend(s: Session, a: seq<string>, b: seq<string>,
                                     step: (Session, string) -> (Session, Outcome))
    ensures var ra := Run(s, a, step);
      Quit !in ra.1 ==> Run(s, a + b, step) == (Run(ra.0, b, step).0, ra.1 + Run(ra.0, b, step).1)
    ensures Quit in Run(s, a, step).1 ==> Run(s, a + b, step) == Run(s, a, step)
    decreases |a|
  {
    if a == [] {
      assert a + b == b;
      assert Run(s, a, step) == (s, []);
      assert [] + Run(s, b, step).1 == Run(s, b, step).1;
    } else {
      var ab := a + b;
      assert ab[0] == a[0] && ab[1..] == a[1..] + b;
      var next := step(s, a[0]);
      if next.1 == Quit {
        assert Run(s, a, step) == (next.0, [Quit]);
        assert Run(s, ab, step) == (next.0, [Quit]);
      } else {
        RunAppend(next.0, a[1..], b, step);
        var rest := Run(next.0, a[1..], step);
        var restB := Run(next.0, a[1..] + b, step);
        assert Run(s, a, step) == (rest.0, [next.1] + rest.1);
        assert Run(s, ab, step) == (restB.0, [next.1] + restB.1);
        assert Quit in [next.1] + rest.1 <==> Quit in rest.1;
        if Quit !in rest.1 {
          var rb := Run(rest.0, b, step);
          AppendAssoc([next.1], rest.1, rb.1);
        }
      }
    }
  }

  // ---------------------------------------------------------------------
  // The configuration commands
  // ---------------------------------------------------------------------

  lemma IntToStringClean(n: int)
    ensures IntToString(n) != "" && NoEdgeSpace(IntToString(n))
  {
    var s := IntToString(n);
    assert !IsSpace(s[0]) && !IsSpace(s[|s| - 1]);
  }

  /** A command word typed in any letter case, then an argument. */
  lemma CommandLine(s: Session, word: string, arg: string, name: string)
    requires IsWord(word) && Lower(word) == name && arg != "" && NoEdgeSpace(arg)
    ensures Strip(word + " " + arg) == word + " " + arg
    ensures ParseCommand(word + " " + arg) == Some(Command(name, arg))
    ensures Step(s, word + " " + arg) == RunCommand(s, Command(name, arg)).ValueOr(AskQuestion(s, word + " " + arg))
  {
    var line := word + " " + arg;
    ParseCommandWithArg(word, arg);
    assert line[0] == word[0] && line[|line| - 1] == arg[|arg| - 1];
    StripOfStripped(line);
  }

  lemma MarksRun(s: Session, arg: string)
    ensures RunCommand(s, Command("marks", arg)) == Some(match ParseInt(arg)
        case None => (s, MarksNotNumber)
        case Some(m) =>
          if ValidMarks(m) then (s.(cfg := s.cfg.(marks := m)), MarksSet(m))
          else (s, MarksOutOfRange))
  {
    var n := "marks";
    assert |n| == 5 && n[0] == 'm';
    assert n != "help" && n != "?" && n != "exit";
    assert "clear"[0] == 'c';
  }

  lemma ModeRun(s: Session, arg: string)
    ensures RunCommand(s, Command("mode", arg)) == Some(match ParseMode(Lower(arg))
        case None => (s, ModeInvalid)
        case Some(m) => (s.(cfg := s.cfg.(mode := m)), ModeSet(m)))
  {
    var n := "mode";
    assert |n| == 4 && n[0] == 'm' && n[1] == 'o';
    assert "help"[0] == 'h' && "exit"[0] == 'e' && n != "?" && n != "clear";
    assert n != "marks" && n != "topic" && n != "model";
  }

  lemma TopicRun(s: Session, arg: string)
    ensures RunCommand(s, Command("topic", arg)) == Some((s.(cfg := s.cfg.(topic := arg)), TopicSet(arg)))
  {
    var n := "topic";
    assert |n| == 5 && n[0] == 't';
    assert n != "help" && n != "?" && n != "exit";
    assert "clear"[0] == 'c' && "marks"[0] == 'm';
  }

  /** `marks N` sets the marks exactly when N is 2, 5 or 10, and changes
      nothing else; a numeral past `int()`'s digit limit is not a number. */
  lemma MarksCommand(s: Session, word: string, m: int)
    requires IsWord(word) && Lower(word) == "marks"
    ensures Step(s, word + " " + IntToString(m))
         == if ValidMarks(m) then (s.(cfg := s.cfg.(marks := m)), MarksSet(m))
            else if |NatToString(if m < 0 then -m else m)| <= MaxIntDigits then (s, MarksOutOfRange)
            else (s, MarksNotNumber)
  {
    IntToStringClean(m);
    MarksRun(s, IntToString(m));
    CommandLine(s, word, IntToString(m), "marks");
    ParseIntOfString(m);
  }

  /** `mode X` selects the mode whose name X spells in any letter case. */
  lemma ModeCommand(s: Session, word: string, arg: string, m: Mode)
    requires IsWord(word) && Lower(word) == "mode"
    requires arg != "" && NoEdgeSpace(arg) && Lower(arg) == ModeName(m)
    ensures Step(s, word + " " + arg) == (s.(cfg := s.cfg.(mode := m)), ModeSet(m))
  {
    CommandLine(s, word, arg, "mode");
    ParseModeName(m);
    ModeRun(s, arg);
  }

  /** `topic T` sets the topic to T verbatim. */
  lemma TopicCommand(s: Session, word: string, topic: string)
    requires IsWord(word) && Lower(word) == "topic"
    requires topic != "" && NoEdgeSpace(topic)
    ensures Step(s, word + " " + topic) == (s.(cfg := s.cfg.(topic := topic)), TopicSet(topic))
  {
    CommandLine(s, word, topic, "topic");
    TopicRun(s, topic);
  }

  /** A command word typed on its own, in any letter case. */
  lemma BareCommandLine(s: Session, word: string, name: string)
    requires IsWord(word) && Lower(word) == name
    ensures Strip(word) == word
    ensures ParseCommand(word) == Some(Command(name, ""))
    ensures Step(s, word) == RunCommand(s, Command(name, "")).ValueOr(AskQuestion(s, word))
  {
    ParseBareCommand(word);
    StripOfStripped(word);
  }

  /** `model NAME` switches the model to NAME. */
  lemma ModelCommand(s: Session, word: string, name: string)
    requires IsWord(word) && Lower(word) == "model"
    requires name != "" && NoEdgeSpace(name)
    ensures Step(s, word + " " + name) == (s.(model := name), ModelSet(name))
  {
    CommandLine(s, word, name, "model");
  }

  /** `model` without a name is rejected and changes nothing. */
  lemma BareModelCommand(s: Session, word: string)
    requires IsWord(word) && Lower(word) == "model"
    ensures Step(s, word) == (s, ModelNameMissing)
  {
    BareCommandLine(s, word, "model");
  }

  /** A line that is no command and no slash command is asked in the current
      mode, with the request and history the mode plans for it. */
  lemma PlainQuestion(s: Session, line: string)
    requires !AllSpace(line) && !IsCommandName(ParseCommand(line).value.name)
    requires ExtractSlashAsWritten(Strip(line)).None?
    ensures var q := Strip(line);
      var plan := PlanRequest(s.cfg, s.history, q);
      Step(s, line) == (s.(history := plan.0), Ask(q, plan.1))
  {
    var q := Strip(line);
    StripIdempotent(line);
    assert q != "";
    AsWrittenNeverRejects(q);
  }

  /** In a chat mode a plain question is recorded in the clamped history and
      sent as the summary of the history so far, the question and an open
      assistant turn, with 300 new tokens at temperature 0.2. */
  lemma ChatQuestion(s: Session, line: string)
    requires !AllSpace(line) && !IsCommandName(ParseCommand(line).value.name)
    requires ExtractSlashAsWritten(Strip(line)).None?
    requires IsChatMode(s.cfg.mode)
    ensures var q := Strip(line);
      Step(s, line)
      == (s.(history := ChatHistory(s.history, q)),
          Ask(q, Request(Chat(ChatPrompt(SummarizeContext(s.history), q)), 300, 20)))
  {
    PlainQuestion(s, line);
    ChatContextIsSummary(s.history, Strip(line));
  }

  /** A line starting with `/` is never a configuration command. */
  lemma SlashLineIsQuestion(s: Session, line: string)
    requires Strip(line) != "" && Strip(line)[0] == '/'
    ensures Step(s, line) == AskQuestion(s, Strip(line))
  {
    SlashNotCommand(s, Strip(line));
  }

  lemma SlashNotCommand(s: Session, userIn: string)
    requires userIn != "" && NoEdgeSpace(userIn) && userIn[0] == '/'
    ensures ParseCommand(userIn).Some?
    ensures RunCommand(s, ParseCommand(userIn).value).None?
  {
    assert !IsSpace(userIn[0]);
    var c := ParseCommand(userIn).value;
    assert c.name[0] == LowerChar(userIn[0]) == '/';
    assert c.name != "help" && c.name != "?" && c.name != "exit" && c.name != "clear";
    assert c.name != "marks" && c.name != "topic" && c.name != "model" && c.name != "mode";
  }

  /** `/notes Q`, `/mcq Q` and `/pyq Q` switch to that mode and ask for Q
      with the mode's own prompt, leaving the chat history alone. */
  lemma SlashCommand(s: Session, tag: string, m: Mode, q: string)
    requires (tag == "/notes" && m == Notes) || (tag == "/mcq" && m == Mcq) || (tag == "/pyq" && m == Pyq)
    requires q != "" && NoEdgeSpace(q)
    ensures var cfg := s.cfg.(mode := m);
      Step(s, tag + " " + q) == (s.(cfg := cfg), Ask(q, PlanRequest(cfg, s.history, q).1))
  {
    var line := tag + " " + q;
    assert line[0] == '/' && line[|line| - 1] == q[|q| - 1];
    StripOfStripped(line);
    SlashLineIsQuestion(s, line);
    SlashExtract(tag, m, q);
    AskSlash(s, line, m, q);
  }

  /** A slash line that names a non-chat mode and a question asks it in
      that mode without touching the history. */
  lemma AskSlash(s: Session, userIn: string, m: Mode, q: string)
    requires NoEdgeSpace(userIn) && ExtractSlashAsWritten(userIn) == Some(Slash(m, q)) && q != ""
    requires !IsChatMode(m)
    ensures var cfg := s.cfg.(mode := m);
      AskQuestion(s, userIn) == (s.(cfg := cfg), Ask(q, PlanRequest(cfg, s.history, q).1))
  {
  }

  lemma SlashExtract(tag: string, m: Mode, q: string)
    requires (tag == "/notes" && m == Notes) || (tag == "/mcq" && m == Mcq) || (tag == "/pyq" && m == Pyq)
    requires q != "" && NoEdgeSpace(q)
    ensures ExtractSlashAsWritten(tag + " " + q) == Some(Slash(m, q))
  {
    var line := tag + " " + q;
    TagHit(tag, q);
    if tag == "/mcq" {
      TagMismatch(line, tag, "/notes");
    } else if tag == "/pyq" {
      TagMismatch(line, tag, "/notes");
      TagMismatch(line, tag, "/mcq");
    }
  }

  lemma TagHit(tag: string, q: string)
    requires q != "" && NoEdgeSpace(q)
    ensures TagPrefix(tag + " " + q, tag) && StartsWith(tag + " " + q, tag)
    ensures Strip((tag + " " + q)[|tag|..]) == q
  {
    var line := tag + " " + q;
    assert line[..|tag| + 1] == tag + " ";
    assert line[..|tag|] == tag;
    assert line[|tag|..] == " " + q;
    StripAfterSpace(q);
  }

  /** As written, a bare tag is asked as a question in the current mode,
      tag and all. */
  lemma BareSlashAsked(s: Session, tag: string)
    requires tag == "/notes" || tag == "/mcq" || tag == "/pyq"
    ensures var plan := PlanRequest(s.cfg, s.history, tag);
      Step(s, tag) == (Session(s.cfg, plan.0, s.model), Ask(tag, plan.1))
  {
    assert tag[0] == '/' && !IsSpace(tag[|tag| - 1]);
    StripOfStripped(tag);
    SlashLineIsQuestion(s, tag);
    BareTagAsWritten();
  }

  /** With the correction, a bare tag selects its mode and is then rejected
      for want of a question. */
  lemma BareSlashRejected(s: Session, tag: string, m: Mode)
    requires (tag == "/notes" && m == Notes) || (tag == "/mcq" && m == Mcq) || (tag == "/pyq" && m == Pyq)
    ensures StepCorrected(s, tag) == (s.(cfg := s.cfg.(mode := m)), QuestionMissing)
  {
    assert tag[0] == '/' && !IsSpace(tag[|tag| - 1]);
    StripOfStripped(tag);
    SlashNotCommand(s, tag);
    BareTagRejected();
    assert StepCorrected(s, tag) == AskFor(s, tag, ExtractSlash(tag));
  }

  /** The correction changes the loop on the three bare tags only. */
  lemma CorrectionOnlyAffectsBareTags(s: Session, line: string)
    requires Strip(line) != "/notes" && Strip(line) != "/mcq" && Strip(line) != "/pyq"
    ensures StepCorrected(s, line) == Step(s, line)
  {
    var userIn := Strip(line);
    if userIn != "" {
      ExtractAgreesAwayFromBareTags(userIn);
      assert AskFor(s, userIn, ExtractSlash(userIn)) == AskQuestion(s, userIn);
    }
  }
}

=== FILE: optional.dfy ===
/** A value that may be absent. In the bot it stands for Python's `None`
    (an unset role or content, a missing chat text) and for the failures
    the code catches or leaves uncaught: a mode with no format entry, a
    command argument that is not a number, an unknown mode name. */
module Optional {

  datatype Option<T> = None | Some(value: T) {

    /** `x if x is not None else fallback`. */
    function ValueOr(fallback: T): T {
      if Some? then value else fallback
    }
  }
}

=== FILE: prompts.dfy ===
/** The bot's configuration record and its deterministic prompt builders:
    length guidance per mark value, the per-mode output format, the single
    hosted-model prompt and the short chat-context summary. */
module Prompts {
  import opened Optional
  import opened Str
  import Utils

  /** Answer modes. The prompt formats cover the first five; the command
      loop also accepts `pyq`, for which there is no format. */
  datatype Mode = Explain | Numerical | Notes | Mcq | Exam | Pyq

  /** The mode as the user types it and as the prompt shows it. */
  function ModeName(m: Mode): string {
    match m
    case Explain => "explain"
    case Numerical => "numerical"
    case Notes => "notes"
    case Mcq => "mcq"
    case Exam => "exam"
    case Pyq => "pyq"
  }

  /** The mode a (lower-cased) name denotes, None for any other text. */
  function ParseMode(s: string): (r: Option<Mode>)
    ensures r.Some? ==> ModeName(r.value) == s
    ensures r.None? ==> forall m: Mode :: ModeName(m) != s
  {
    if s == "explain" then Some(Explain)
    else if s == "numerical" then Some(Numerical)
    else if s == "notes" then Some(Notes)
    else if s == "mcq" then Some(Mcq)
    else if s == "exam" then Some(Exam)
    else if s == "pyq" then Some(Pyq)
    else None
  }

  lemma ParseModeName(m: Mode)
    ensures ParseMode(ModeName(m)) == Some(m)
  {
  }

  /** The session configuration; `marks` is one of 2, 5 and 10 in the
      command loop but any integer here. */
  datatype BotConfig = BotConfig(mode: Mode, marks: int, topic: string)

  const DefaultConfig := BotConfig(Explain, 5, "")

  /** A chat message as a dictionary that may lack either key. */
  datatype Message = Message(role: Option<string>, content: Option<string>)

  const SystemRules := "You are an Economics Explainer Bot for students.\nFollow these rules:\n- Be correct and clear. If the question is ambiguous, ask 1\U{2013}2 clarifying questions.\n- Do NOT invent official statistics, current GDP/inflation numbers, or policy details unless the user provides them.\n- Prefer general theory + simple examples over made-up factual claims.\n- Keep language exam-friendly, concise, and structured.\n- If you are unsure, say so and provide what can be said confidently.\n"

  const FormatExplain := "Return in this exact structure:\n1) Definition (2\U{2013}3 lines)\n2) Intuition (simple explanation)\n3) Example (realistic but generic; do not claim exact official numbers)\n4) Common mistakes (2\U{2013}4 bullets)\n5) Quick recap (3 bullets)\n6) 3 MCQs with answers (A/B/C/D)\n"
  const FormatNumerical := "Return in this exact structure:\n1) What is asked\n2) Given/Assumptions\n3) Step-by-step solution with formulas\n4) Final answer\n5) Common pitfalls (2\U{2013}3 bullets)\n"
  const FormatNotes := "Return in this exact structure:\n- Key terms (bullets)\n- Core points (6\U{2013}10 bullets)\n- Diagram/graph suggestion (describe axes + curve shift verbally)\n- 3 likely exam questions\n"
  const FormatMcq := "Generate:\n- 8 MCQs (A/B/C/D) + answer key\n- 2 assertion-reason questions + answers\nQuestions must be conceptual and aligned with economics exam style.\n"
  const FormatExam := "User wants an exam-ready answer.\nReturn:\n- Intro (2\U{2013}3 lines)\n- Main body with headings\n- One example\n- Conclusion (1\U{2013}2 lines)\nKeep length suitable for marks asked.\n"

  const GuidanceVeryShort := "Length guidance: very short (3\U{2013}6 lines)."
  const GuidanceMedium := "Length guidance: medium (10\U{2013}14 lines)."
  const GuidanceLong := "Length guidance: long (3\U{2013}6 short paragraphs)."

  /** `marks_guidance(marks)`: every integer gets exactly one of the three
      texts, by the bands up to 2, 3 to 5, and above 5. */
  function MarksGuidance(marks: int): (r: string)
    ensures r == GuidanceVeryShort <==> marks <= 2
    ensures r == GuidanceMedium <==> 2 < marks <= 5
    ensures r == GuidanceLong <==> marks > 5
  {
    if marks <= 2 then GuidanceVeryShort
    else if marks <= 5 then GuidanceMedium
    else GuidanceLong
  }

  /** `mode_format(mode)`: the five prompt modes each have their own
      format; `pyq` is not a key of the table (the KeyError, here None). */
  function ModeFormat(m: Mode): (r: Option<string>)
    ensures r.None? <==> m == Pyq
    ensures m == Explain ==> r == Some(FormatExplain)
    ensures m == Numerical ==> r == Some(FormatNumerical)
    ensures m == Notes ==> r == Some(FormatNotes)
    ensures m == Mcq ==> r == Some(FormatMcq)
    ensures m == Exam ==> r == Some(FormatExam)
  {
    match m
    case Explain => Some(FormatExplain)
    case Numerical => Some(FormatNumerical)
    case Notes => Some(FormatNotes)
    case Mcq => Some(FormatMcq)
    case Exam => Some(FormatExam)
    case Pyq => None
  }

  /** No two modes share a format. */
  lemma ModeFormatInjective(a: Mode, b: Mode)
    requires ModeFormat(a).Some? && ModeFormat(a) == ModeFormat(b)
    ensures a == b
  {
    assert |FormatExplain| != |FormatNumerical|;
    assert |FormatExplain| != |FormatNotes|;
    assert |FormatExplain| != |FormatMcq|;
    assert |FormatExplain| != |FormatExam|;
    assert |FormatNumerical| != |FormatNotes|;
    assert |FormatNumerical| != |FormatMcq|;
    assert |FormatNumerical| != |FormatExam|;
    assert |FormatNotes| != |FormatMcq|;
    assert |FormatNotes| != |FormatExam|;
    assert |FormatMcq| != |FormatExam|;
  }

  /** `s.strip()` is empty. */
  predicate IsBlank(s: string) {
    Strip(s) == ""
  }

  /** `build_prompt(user_question, cfg, chat_context)`: the fixed rules and
      the mode's format laid out by `Compose`; None where the format table
      has no entry for the mode. */
  function BuildPrompt(question: string, cfg: BotConfig, chatContext: string): (r: Option<string>)
    ensures r.None? <==> cfg.mode == Pyq
    ensures r.Some? ==> r.value == Compose(SystemRules, ModeFormat(cfg.mode).value, question, cfg, chatContext)
  {
    match ModeFormat(cfg.mode)
    case None => None
    case Some(format) => Some(Compose(SystemRules, format, question, cfg, chatContext))
  }

  /** The prompt's layout for any rules text and format: the rules, the
      topic line, the mode line, the marks line and the format, then the
      chat block and the question. */
  function Compose(rules: string, format: string, question: string, cfg: BotConfig, chatContext: string): (r: string)
    ensures StartsWith(r, rules + "\n" + TopicLine(cfg.topic) + ModeLine(cfg.mode))
    ensures EndsWith(r, format + "\n\n" + ContextBlock(chatContext) + Ending(question))
    ensures StartsWith(r, rules + "\n") && EndsWith(r, Ending(question))
  {
    var body := MarksLine(cfg.marks) + format;
    AssemblyShape(rules + "\n", TopicLine(cfg.topic), ModeLine(cfg.mode), body, ContextBlock(chatContext), Ending(question));
    ConcatKeepsEnds(MarksLine(cfg.marks), format, "", "");
    Assemble(rules + "\n", TopicLine(cfg.topic), ModeLine(cfg.mode), body, ContextBlock(chatContext), Ending(question))
  }

  /** The topic line, present only for a non-blank topic. */
  function TopicLine(topic: string): (r: string)
    ensures r == "" <==> IsBlank(topic)
    ensures r != "" ==> StartsWith(r, "Topic context: ") && EndsWith(r, topic + "\n")
  {
    if IsBlank(topic) then ""
    else
      ConcatKeepsEnds("Topic context: ", topic + "\n", "", "");
      "Topic context: " + (topic + "\n")
  }

  function ModeLine(mode: Mode): (r: string)
    ensures StartsWith(r, "Mode: ") && EndsWith(r, ModeName(mode) + "\n")
  {
    ConcatKeepsEnds("Mode: ", ModeName(mode) + "\n", "", "");
    "Mode: " + (ModeName(mode) + "\n")
  }

  function MarksLine(marks: int): (r: string)
    ensures StartsWith(r, "Marks: " + IntToString(marks))
    ensures EndsWith(r, "(" + MarksGuidance(marks) + ")\n\n")
  {
    var head := "Marks: " + IntToString(marks);
    var tail := "(" + MarksGuidance(marks) + ")\n\n";
    ConcatKeepsEnds(head, " " + tail, head, tail);
    ConcatKeepsEnds(" ", tail, "", "");
    head + (" " + tail)
  }

  /** The recent chat block, present only for a non-blank context. */
  function ContextBlock(chatContext: string): (r: string)
    ensures r == "" <==> IsBlank(chatContext)
    ensures r != "" ==> StartsWith(r, "Recent chat context:\n" + chatContext) && EndsWith(r, "\n\n")
  {
    if IsBlank(chatContext) then ""
    else
      var head := "Recent chat context:\n" + chatContext;
      ConcatKeepsEnds(head, "\n\n", "", "");
      head + "\n\n"
  }

  function Ending(question: string): (r: string)
    ensures StartsWith(r, "User question: " + question)
    ensures EndsWith(r, "\n\nAnswer:")
  {
    var head := "User question: " + question;
    ConcatKeepsEnds(head, "\n\nAnswer:", "", "");
    head + "\n\nAnswer:"
  }

  /** The prompt's parts in order, the format followed by a blank line. */
  function Assemble(rules: string, topicLine: string, modeLine: string, body: string,
                    contextBlock: string, ending: string): string
  {
    rules + topicLine + modeLine + body + "\n\n" + contextBlock + ending
  }

  lemma AssemblyShape(rules: string, topicLine: string, modeLine: string, body: string,
                      contextBlock: string, ending: string)
    ensures StartsWith(Assemble(rules, topicLine, modeLine, body, contextBlock, ending), rules)
    ensures StartsWith(Assemble(rules, topicLine, modeLine, body, contextBlock, ending), rules + topicLine + modeLine)
    ensures EndsWith(Assemble(rules, topicLine, modeLine, body, contextBlock, ending), ending)
    ensures EndsWith(Assemble(rules, topicLine, modeLine, body, contextBlock, ending), "\n\n" + contextBlock + ending)
    ensures forall f :: EndsWith(body, f) ==>
      EndsWith(Assemble(rules, topicLine, modeLine, body, contextBlock, ending), f + "\n\n" + contextBlock + ending)
  {
    AssemblyStart(rules, topicLine, modeLine, body, contextBlock, ending);
    AssemblyEnd(rules, topicLine, modeLine, body, contextBlock, ending);
  }

  lemma AssemblyStart(rules: string, topicLine: string, modeLine: string, body: string,
                      contextBlock: string, ending: string)
    ensures StartsWith(Assemble(rules, topicLine, modeLine, body, contextBlock, ending), rules)
    ensures StartsWith(Assemble(rules, topicLine, modeLine, body, contextBlock, ending), rules + topicLine + modeLine)
  {
    var s := Assemble(rules, topicLine, modeLine, body, contextBlock, ending);
    var head := rules + topicLine + modeLine;
    assert s == head + (body + "\n\n" + contextBlock + ending);
    assert s[..|head|] == head;
    assert head[..|rules|] == rules;
  }

  lemma AssemblyEnd(rules: string, topicLine: string, modeLine: string, body: string,
                    contextBlock: string, ending: string)
    ensures EndsWith(Assemble(rules, topicLine, modeLine, body, contextBlock, ending), ending)
    ensures EndsWith(Assemble(rules, topicLine, modeLine, body, contextBlock, ending), "\n\n" + contextBlock + ending)
    ensures forall f :: EndsWith(body, f) ==>
      EndsWith(Assemble(rules, topicLine, modeLine, body, contextBlock, ending), f + "\n\n" + contextBlock + ending)
  {
    var s := Assemble(rules, topicLine, modeLine, body, contextBlock, ending);
    var head := rules + topicLine + modeLine;
    var t := "\n\n" + contextBlock + ending;
    assert s == head + body + t;
    assert s[|s| - |t|..] == t;
    assert t[|t| - |ending|..] == ending;
    forall f | EndsWith(body, f)
      ensures EndsWith(s, f + t)
    {
      assert s == (head + body[..|body| - |f|]) + (f + t);
      assert s[|s| - |f + t|..] == f + t;
    }
  }

  /** The topic line is there exactly when the topic is not blank. */
  lemma TopicLineIffTopic(rules: string, format: string, question: string, cfg: BotConfig, chatContext: string)
    ensures StartsWith(Compose(rules, format, question, cfg, chatContext), rules + "\n" + "Topic context: ")
        <==> !IsBlank(cfg.topic)
  {
    var r := Compose(rules, format, question, cfg, chatContext);
    var line, next := TopicLine(cfg.topic), ModeLine(cfg.mode);
    TagsDiffer();
    LeadingLine(r, rules + "\n", line, next, "Mode: ", "Topic context: ");
  }

  lemma TagsDiffer()
    ensures "Mode: "[0] != "Topic context: "[0]
  {
  }

  /** What follows a known head in a text: the first line after `rules` is
      `line` when not empty, else `next`; a line starting with `tag` makes
      the text start with `rules + tag`, and a `next` whose first character
      differs from the tag's does not. */
  lemma LeadingLine(r: string, rules: string, line: string, next: string, nextTag: string, tag: string)
    requires StartsWith(r, rules + line + next)
    requires line != "" ==> StartsWith(line, tag)
    requires StartsWith(next, nextTag) && nextTag != "" && tag != "" && nextTag[0] != tag[0]
    ensures StartsWith(r, rules + tag) <==> line != ""
  {
    var q := rules + line + next;
    if line != "" {
      ConcatKeepsEnds(line, next, tag, "");
      assert q == rules + (line + next);
      assert q[..|rules + tag|] == rules + tag;
      assert r[..|rules + tag|] == q[..|rules + tag|];
    } else {
      assert next[0] == nextTag[0];
      assert q[|rules|] == next[0];
      PrefixesAgree(r, rules + tag, q, |rules|);
    }
  }

  /** Two prefixes of one text agree wherever both are defined. */
  lemma PrefixesAgree(r: string, p: string, q: string, k: nat)
    requires StartsWith(r, q) && k < |p| && k < |q|
    ensures StartsWith(r, p) ==> p[k] == q[k]
  {
    if StartsWith(r, p) {
      assert p[k] == r[..|p|][k] == r[k] == r[..|q|][k];
    }
  }

  // ---------------------------------------------------------------------
  // summarize_context
  // ---------------------------------------------------------------------

  /** Number of most recent messages the summary looks at. */
  const SummaryWindow := 8

  /** One summary line: the role upper-cased (default `user`), a colon,
      and the content (default empty). */
  function Entry(m: Message): string {
    Upper(m.role.ValueOr("user")) + ": " + m.content.ValueOr("")
  }

  function Entries(ms: seq<Message>): (es: seq<string>)
    ensures |es| == |ms|
    ensures forall i :: 0 <= i < |ms| ==> es[i] == Entry(ms[i])
  {
    seq(|ms|, i requires 0 <= i < |ms| => Entry(ms[i]))
  }

  /** `messages[-8:]`: the messages the summary looks at. */
  function Recent(messages: seq<Message>): (r: seq<Message>)
    ensures |messages| <= SummaryWindow ==> r == messages
    ensures |messages| > SummaryWindow ==> r == messages[|messages| - SummaryWindow..]
  {
    messages[Utils.NegativeSliceStart(|messages|, SummaryWindow)..]
  }

  /** `summarize_context(messages)`. */
  function SummarizeContext(messages: seq<Message>): (r: string)
    ensures messages == [] ==> r == ""
    ensures |messages| > SummaryWindow ==>
      r == SummarizeContext(messages[|messages| - SummaryWindow..])
    ensures messages != [] ==> EndsWith(r, Entry(messages[|messages| - 1]))
  {
    if messages == [] then ""
    else
      var recent := Recent(messages);
      JoinEndsWithLast(Entries(recent), "\n");
      assert recent[|recent| - 1] == messages[|messages| - 1];
      if |messages| > SummaryWindow then
        assert Recent(recent) == recent;
        JoinWith(Entries(recent), "\n")
      else JoinWith(Entries(recent), "\n")
  }

  lemma {:induction false} JoinEndsWithLast(ws: seq<string>, sep: string)
    requires ws != []
    ensures EndsWith(JoinWith(ws, sep), ws[|ws| - 1])
    decreases |ws|
  {
    if |ws| > 1 {
      JoinEndsWithLast(ws[1..], sep);
      var j := JoinWith(ws[1..], sep);
      var s := ws[0] + sep + j;
      assert s[|s| - |j|..] == j;
      assert ws[1..][|ws[1..]| - 1] == ws[|ws| - 1];
      var l := ws[|ws| - 1];
      assert s[|s| - |l|..] == j[|j| - |l|..];
    }
  }

  /** Neither the role nor the content holds a line break. */
  predicate OneLineMessage(m: Message) {
    NoLineBreak(m.role.ValueOr("user")) && NoLineBreak(m.content.ValueOr(""))
  }

  predicate OneLineMessages(ms: seq<Message>) {
    forall i :: 0 <= i < |ms| ==> OneLineMessage(ms[i])
  }

  /** With no line breaks in roles or contents, the summary's lines are
      exactly the entries of the last eight messages, in order: one
      `ROLE: content` line per message. */
  lemma SummaryLines(messages: seq<Message>)
    requires OneLineMessages(messages)
    ensures SplitLines(SummarizeContext(messages)) == Entries(Recent(messages))
  {
    if messages != [] {
      var recent := Recent(messages);
      RecentOneLine(messages);
      EntriesAreLines(recent);
      SplitLinesJoin(Entries(recent));
      SummaryIsJoin(messages);
    }
  }

  lemma SummaryIsJoin(messages: seq<Message>)
    requires messages != []
    ensures SummarizeContext(messages) == JoinWith(Entries(Recent(messages)), "\n")
  {
  }

  lemma RecentOneLine(messages: seq<Message>)
    requires OneLineMessages(messages)
    ensures OneLineMessages(Recent(messages))
  {
    if |messages| > SummaryWindow {
      var k := |messages| - SummaryWindow;
      var recent := messages[k..];
      assert Recent(messages) == recent;
      forall i | 0 <= i < |recent| ensures OneLineMessage(recent[i]) {
        assert recent[i] == messages[k + i];
      }
    }
  }

  lemma EntriesAreLines(ms: seq<Message>)
    requires OneLineMessages(ms)
    ensures forall i :: 0 <= i < |ms| ==> NoLineBreak(Entries(ms)[i]) && Entries(ms)[i] != ""
  {
    forall i | 0 <= i < |ms| ensures NoLineBreak(Entries(ms)[i]) && Entries(ms)[i] != "" {
      EntryIsOneLine(ms[i]);
    }
  }

  /** An entry is a non-empty line when its parts have no line breaks. */
  lemma EntryIsOneLine(m: Message)
    requires OneLineMessage(m)
    ensures NoLineBreak(Entry(m)) && Entry(m) != ""
  {
    var role := Upper(m.role.ValueOr("user"));
    var e := Entry(m);
    assert e == role + ": " + m.content.ValueOr("");
    assert e[|role|] == ':';
    forall i | 0 <= i < |e| ensures !IsLineBreak(e[i]) {
      if i < |role| {
        assert e[i] == UpperChar(m.role.ValueOr("user")[i]);
      }
    }
  }

  /** Messages older than the last eight never reach the summary. */
  lemma SummaryIgnoresOlder(older: seq<Message>, recent: seq<Message>)
    requires |recent| >= SummaryWindow
    ensures SummarizeContext(older + recent) == SummarizeContext(recent)
  {
    var all := older + recent;
    assert Recent(all) == Recent(recent) by {
      if |recent| > SummaryWindow || older != [] {
        assert all[|all| - SummaryWindow..] == recent[|recent| - SummaryWindow..];
      }
    }
  }

  /** Clamping the history to at least four turns (eight messages) before
      summarising changes nothing. */
  lemma SummaryOfClampedHistory(messages: seq<Message>, maxTurns: int)
    requires maxTurns >= 4
    ensures SummarizeContext(Utils.ClampChatHistory(messages, maxTurns)) == SummarizeContext(messages)
  {
    var c := Utils.ClampChatHistory(messages, maxTurns);
    if |c| < |messages| {
      assert messages == messages[..|messages| - |c|] + c;
      SummaryIgnoresOlder(messages[..|messages| - |c|], c);
    }
  }
}

=== FILE: str.dfy ===
/** The Python `str` built-ins the bot relies on, over `seq<char>`:
    `isspace`, `strip`, `split()`, `" ".join`, `splitlines`, ASCII `lower`
    and `upper`, `startswith`, substring search, `str(int)` and `int(str)`. */
module Str {
  import opened Optional

  // ---------------------------------------------------------------------
  // Character classes
  // ---------------------------------------------------------------------

  /** Python's `str.isspace()` on one character: U+0009..U+000D,
      U+001C..U+0020, U+0085, U+00A0, U+1680, U+2000..U+200A, U+2028,
      U+2029, U+202F, U+205F and U+3000. `strip()` and `split()` use it. */
  predicate IsSpace(c: char) {
    ('\t' <= c <= '\r') || ('\U{1C}' <= c <= ' ')
    || c == '\U{85}' || c == '\U{A0}' || c == '\U{1680}'
    || ('\U{2000}' <= c <= '\U{200A}')
    || c == '\U{2028}' || c == '\U{2029}' || c == '\U{202F}'
    || c == '\U{205F}' || c == '\U{3000}'
  }

  /** The characters `str.splitlines()` breaks at (`\r\n` counts once). */
  predicate IsLineBreak(c: char) {
    ('\n' <= c <= '\r') || ('\U{1C}' <= c <= '\U{1E}')
    || c == '\U{85}' || c == '\U{2028}' || c == '\U{2029}'
  }

  predicate IsDigit(c: char) {
    '0' <= c <= '9'
  }

  predicate AllSpace(s: string) {
    forall i :: 0 <= i < |s| ==> IsSpace(s[i])
  }

  /** Neither the first nor the last character is whitespace. */
  predicate NoEdgeSpace(s: string) {
    s == [] || (!IsSpace(s[0]) && !IsSpace(s[|s| - 1]))
  }

  predicate NoLineBreak(s: string) {
    forall i :: 0 <= i < |s| ==> !IsLineBreak(s[i])
  }

  predicate StartsWith(s: string, p: string) {
    |p| <= |s| && s[..|p|] == p
  }

  predicate EndsWith(s: string, p: string) {
    |p| <= |s| && s[|s| - |p|..] == p
  }

  /** A prefix of `a` is a prefix of `a + b`; a suffix of `b` is a suffix of
      `a + b`. */
  lemma ConcatKeepsEnds(a: string, b: string, p: string, q: string)
    ensures StartsWith(a + b, a) && EndsWith(a + b, b)
    ensures StartsWith(a, p) ==> StartsWith(a + b, p)
    ensures EndsWith(b, q) ==> EndsWith(a + b, q)
  {
    var s := a + b;
    assert s[..|a|] == a;
    assert s[|s| - |b|..] == b;
    if StartsWith(a, p) {
      assert s[..|p|] == a[..|p|];
    }
    if EndsWith(b, q) {
      assert s[|s| - |q|..] == b[|b| - |q|..];
    }
  }

  // ---------------------------------------------------------------------
  // strip()
  // ---------------------------------------------------------------------

  /** Number of whitespace characters at the front of `s`. */
  function LeadingSpaces(s: string): (n: nat)
    ensures n <= |s|
    ensures AllSpace(s[..n])
    ensures n < |s| ==> !IsSpace(s[n])
    decreases |s|
  {
    if s != [] && IsSpace(s[0]) then 1 + LeadingSpaces(s[1..]) else 0
  }

  /** Index where the trailing whitespace of `s` begins. */
  function TrailingStart(s: string): (n: nat)
    ensures n <= |s|
    ensures AllSpace(s[n..])
    ensures n > 0 ==> !IsSpace(s[n - 1])
    decreases |s|
  {
    if s != [] && IsSpace(s[|s| - 1]) then
      var t := s[..|s| - 1];
      var n := TrailingStart(t);
      assert s[n..] == t[n..] + [s[|s| - 1]];
      assert n > 0 ==> s[n - 1] == t[n - 1];
      n
    else |s|
  }

  /** `s.strip()`: the part of `s` between its leading and trailing
      whitespace. */
  function Strip(s: string): (r: string)
    ensures NoEdgeSpace(r)
    ensures r == [] <==> AllSpace(s)
    ensures LeadingSpaces(s) + |r| <= |s|
    ensures r == s[LeadingSpaces(s)..LeadingSpaces(s) + |r|]
    ensures AllSpace(s[LeadingSpaces(s) + |r|..])
  {
    var i := LeadingSpaces(s);
    var j := TrailingStart(s);
    if i >= j then
      assert AllSpace(s) by {
        forall k | 0 <= k < |s| ensures IsSpace(s[k]) {
          if k >= j {
            assert s[k] == s[j..][k - j];
          } else {
            assert s[k] == s[..i][k];
          }
        }
      }
      ""
    else
      assert !AllSpace(s) by { assert !IsSpace(s[i]); }
      s[i..j]
  }

  lemma StripOfStripped(s: string)
    requires NoEdgeSpace(s)
    ensures Strip(s) == s
  {
    if s != [] {
      assert LeadingSpaces(s) == 0;
      assert TrailingStart(s) == |s|;
    }
  }

  /** Concatenation regrouped, for proofs whose terms hide the step. */
  lemma AppendAssoc<T>(h: seq<T>, x: seq<T>, y: seq<T>)
    ensures h + (x + y) == (h + x) + y
  {
  }

  lemma StripIdempotent(s: string)
    ensures Strip(Strip(s)) == Strip(s)
  {
    StripOfStripped(Strip(s));
  }

  // ---------------------------------------------------------------------
  // split() and " ".join()
  // ---------------------------------------------------------------------

  /** A token of `split()`: non-empty and free of whitespace. */
  predicate IsWord(w: string) {
    w != [] && forall i :: 0 <= i < |w| ==> !IsSpace(w[i])
  }

  /** Length of the longest whitespace-free prefix of `s`. */
  function SpanNonSpace(s: string): (n: nat)
    ensures n <= |s|
    ensures forall k :: 0 <= k < n ==> !IsSpace(s[k])
    ensures n < |s| ==> IsSpace(s[n])
    decreases |s|
  {
    if s == [] || IsSpace(s[0]) then 0 else 1 + SpanNonSpace(s[1..])
  }

  /** `s.split()` with no separator: the maximal runs of non-whitespace. */
  function Split(s: string): (ws: seq<string>)
    ensures forall i :: 0 <= i < |ws| ==> IsWord(ws[i])
    decreases |s|
  {
    if s == [] then []
    else if IsSpace(s[0]) then Split(s[1..])
    else
      var n := SpanNonSpace(s);
      [s[..n]] + Split(s[n..])
  }

  /** `sep.join(ws)`. */
  function JoinWith(ws: seq<string>, sep: string): string
  {
    if |ws| == 0 then ""
    else if |ws| == 1 then ws[0]
    else ws[0] + sep + JoinWith(ws[1..], sep)
  }

  /** Concatenation of all strings of `ws` (`"".join(ws)`). */
  function Concat(ws: seq<string>): string
  {
    if ws == [] then "" else ws[0] + Concat(ws[1..])
  }

  /** The non-whitespace characters of `s`, in order. */
  function NonSpaceChars(s: string): string
  {
    if s == [] then ""
    else (if IsSpace(s[0]) then "" else [s[0]]) + NonSpaceChars(s[1..])
  }

  lemma {:induction false} SpanOfWord(w: string, t: string)
    requires IsWord(w)
    requires t == [] || IsSpace(t[0])
    ensures SpanNonSpace(w + t) == |w|
    decreases |w|
  {
    var s := w + t;
    if |w| == 1 {
      assert s[1..] == t;
      if t != [] {
        assert SpanNonSpace(s[1..]) == 0;
      }
    } else {
      assert s[1..] == w[1..] + t;
      SpanOfWord(w[1..], t);
    }
  }

  /** Splitting a space-joined list of words gives the words back. */
  lemma {:induction false} SplitJoin(ws: seq<string>)
    requires forall i :: 0 <= i < |ws| ==> IsWord(ws[i])
    ensures Split(JoinWith(ws, " ")) == ws
    decreases |ws|
  {
    if |ws| == 1 {
      SplitWordThen(ws[0], "");
    } else if |ws| > 1 {
      SplitJoin(ws[1..]);
      SplitWordThen(ws[0], JoinWith(ws[1..], " "));
      assert ws == [ws[0]] + ws[1..];
    }
  }

  /** Leading whitespace does not change the split. */
  lemma {:induction false} SplitSkipsLeading(sp: string, x: string)
    requires AllSpace(sp)
    ensures Split(sp + x) == Split(x)
    decreases |sp|
  {
    if sp == [] {
      assert sp + x == x;
    } else {
      assert IsSpace((sp + x)[0]) && (sp + x)[1..] == sp[1..] + x;
      SplitSkipsLeading(sp[1..], x);
    }
  }

  /** Trailing whitespace ends the last word where it ended before. */
  lemma {:induction false} SpanBeforeSpaces(x: string, sp: string)
    requires AllSpace(sp)
    ensures SpanNonSpace(x + sp) == SpanNonSpace(x)
    decreases |x|
  {
    if x == [] {
      assert x + sp == sp;
    } else if !IsSpace(x[0]) {
      assert (x + sp)[1..] == x[1..] + sp;
      SpanBeforeSpaces(x[1..], sp);
    }
  }

  /** Trailing whitespace does not change the split. */
  lemma {:induction false} SplitIgnoresTrailing(x: string, sp: string)
    requires AllSpace(sp)
    ensures Split(x + sp) == Split(x)
    decreases |x|
  {
    if x == [] {
      assert x + sp == sp + [];
      SplitSkipsLeading(sp, []);
    } else if IsSpace(x[0]) {
      assert (x + sp)[1..] == x[1..] + sp;
      SplitIgnoresTrailing(x[1..], sp);
    } else {
      SpanBeforeSpaces(x, sp);
      var n := SpanNonSpace(x);
      assert (x + sp)[..n] == x[..n];
      assert (x + sp)[n..] == x[n..] + sp;
      SplitIgnoresTrailing(x[n..], sp);
    }
  }

  /** `s.strip().split() == s.split()`. */
  lemma SplitOfStrip(s: string)
    ensures Split(Strip(s)) == Split(s)
  {
    var i := LeadingSpaces(s);
    var r := Strip(s);
    var j := i + |r|;
    assert s == s[..i] + (r + s[j..]);
    SplitSkipsLeading(s[..i], r + s[j..]);
    SplitIgnoresTrailing(r, s[j..]);
  }

  /** A word then a space: the word is the first piece of the split. */
  lemma SplitWordThen(w: string, t: string)
    requires IsWord(w)
    ensures Split(w + " " + t) == [w] + Split(t)
    ensures Split(w) == [w]
  {
    var s := w + " " + t;
    assert s == w + (" " + t);
    SpanOfWord(w, " " + t);
    assert s[..|w|] == w;
    assert s[|w|..] == " " + t;
    assert (" " + t)[1..] == t;
    SpanOfWord(w, "");
    assert w + "" == w;
    assert w[..|w|] == w && w[|w|..] == [];
  }

  lemma {:induction false} NonSpaceCharsAppend(a: string, b: string)
    ensures NonSpaceChars(a + b) == NonSpaceChars(a) + NonSpaceChars(b)
    decreases |a|
  {
    if a == [] {
      assert a + b == b;
    } else {
      assert (a + b)[1..] == a[1..] + b;
      NonSpaceCharsAppend(a[1..], b);
    }
  }

  lemma {:induction false} NonSpaceCharsOfWord(w: string)
    requires forall i :: 0 <= i < |w| ==> !IsSpace(w[i])
    ensures NonSpaceChars(w) == w
    decreases |w|
  {
    if w != [] {
      NonSpaceCharsOfWord(w[1..]);
    }
  }

  /** The words of `s`, put back together, are its non-whitespace characters. */
  lemma {:induction false} ConcatSplit(s: string)
    ensures Concat(Split(s)) == NonSpaceChars(s)
    decreases |s|
  {
    if s == [] {
    } else if IsSpace(s[0]) {
      ConcatSplit(s[1..]);
    } else {
      var n := SpanNonSpace(s);
      var w, t := s[..n], s[n..];
      assert Split(s) == [w] + Split(t);
      ConcatCons(w, Split(t));
      ConcatSplit(t);
      assert s == w + t;
      NonSpaceCharsAppend(w, t);
      NonSpaceCharsOfWord(w);
    }
  }

  lemma ConcatCons(w: string, ws: seq<string>)
    ensures Concat([w] + ws) == w + Concat(ws)
  {
    assert ([w] + ws)[1..] == ws;
  }

  /** Joining words with single spaces drops only the separators. */
  lemma {:induction false} NonSpaceCharsJoin(ws: seq<string>)
    requires forall i :: 0 <= i < |ws| ==> IsWord(ws[i])
    ensures NonSpaceChars(JoinWith(ws, " ")) == Concat(ws)
    decreases |ws|
  {
    if |ws| == 0 {
    } else if |ws| == 1 {
      NonSpaceCharsOfWord(ws[0]);
      assert Concat(ws[1..]) == "";
    } else {
      var rest := JoinWith(ws[1..], " ");
      NonSpaceCharsAppend(ws[0] + " ", rest);
      NonSpaceCharsAppend(ws[0], " ");
      NonSpaceCharsOfWord(ws[0]);
      assert NonSpaceChars(" ") == "";
      NonSpaceCharsJoin(ws[1..]);
    }
  }

  // ---------------------------------------------------------------------
  // splitlines()
  // ---------------------------------------------------------------------

  /** Index of the first line break in `s`, or `|s|`. */
  function LineEnd(s: string): (n: nat)
    ensures n <= |s|
    ensures NoLineBreak(s[..n])
    ensures n < |s| ==> IsLineBreak(s[n])
    decreases |s|
  {
    if s == [] || IsLineBreak(s[0]) then 0 else 1 + LineEnd(s[1..])
  }

  /** `s.splitlines()`: the lines of `s` without their terminators; a
      final terminator does not start an extra empty line. */
  function SplitLines(s: string): (ls: seq<string>)
    ensures forall i :: 0 <= i < |ls| ==> NoLineBreak(ls[i])
    decreases |s|
  {
    if s == [] then []
    else
      var n := LineEnd(s);
      if n == |s| then [s]
      else
        var next := if s[n] == '\r' && n + 1 < |s| && s[n + 1] == '\n' then n + 2 else n + 1;
        [s[..n]] + SplitLines(s[next..])
  }

  lemma LineEndOfLine(l: string, t: string)
    requires NoLineBreak(l)
    requires t == [] || IsLineBreak(t[0])
    ensures LineEnd(l + t) == |l|
    decreases |l|
  {
    if l != [] {
      assert (l + t)[1..] == l[1..] + t;
      LineEndOfLine(l[1..], t);
    }
  }

  /** Lines joined with `"\n"` split back into the same lines, provided no
      line holds a break and the last one is not empty. */
  lemma {:induction false} SplitLinesJoin(ls: seq<string>)
    requires forall i :: 0 <= i < |ls| ==> NoLineBreak(ls[i])
    requires |ls| > 0 ==> ls[|ls| - 1] != ""
    ensures SplitLines(JoinWith(ls, "\n")) == ls
    decreases |ls|
  {
    if |ls| == 0 {
    } else if |ls| == 1 {
      LineEndOfLine(ls[0], "");
      assert ls[0] + "" == ls[0];
    } else {
      var l := ls[0];
      var rest := JoinWith(ls[1..], "\n");
      var s := l + "\n" + rest;
      assert s == l + ("\n" + rest);
      LineEndOfLine(l, "\n" + rest);
      assert s[|l|] == '\n';
      assert s[..|l|] == l;
      assert s[|l| + 1..] == rest;
      JoinNonEmpty(ls[1..], "\n");
      SplitLinesJoin(ls[1..]);
      assert ls == [l] + ls[1..];
    }
  }

  lemma {:induction false} JoinNonEmpty(ws: seq<string>, sep: string)
    requires |ws| > 0 && ws[|ws| - 1] != ""
    ensures JoinWith(ws, sep) != ""
    decreases |ws|
  {
    if |ws| > 1 {
      JoinNonEmpty(ws[1..], sep);
    }
  }

  // ---------------------------------------------------------------------
  // ASCII case mapping
  // ---------------------------------------------------------------------

  function LowerChar(c: char): char {
    if 'A' <= c <= 'Z' then (c as int + 32) as char else c
  }

  function UpperChar(c: char): char {
    if 'a' <= c <= 'z' then (c as int - 32) as char else c
  }

  /** `s.lower()` restricted to ASCII letters. */
  function Lower(s: string): (r: string)
    ensures |r| == |s|
    ensures forall i :: 0 <= i < |s| ==> r[i] == LowerChar(s[i])
  {
    seq(|s|, i requires 0 <= i < |s| => LowerChar(s[i]))
  }

  /** `s.upper()` restricted to ASCII letters. */
  function Upper(s: string): (r: string)
    ensures |r| == |s|
    ensures forall i :: 0 <= i < |s| ==> r[i] == UpperChar(s[i])
  {
    seq(|s|, i requires 0 <= i < |s| => UpperChar(s[i]))
  }

  // ---------------------------------------------------------------------
  // Case-insensitive search; the pattern `p` is given in lower case, so
  // `p in s.lower()` is ContainsCI(s, p) and `s.lower().startswith(p)` is
  // MatchesAt(s, 0, p).
  // ---------------------------------------------------------------------

  predicate MatchesAt(s: string, i: nat, p: string) {
    i + |p| <= |s| && forall k :: 0 <= k < |p| ==> LowerChar(s[i + k]) == p[k]
  }

  predicate ContainsCI(s: string, p: string) {
    exists i: nat | i <= |s| :: MatchesAt(s, i, p)
  }

  /** `t[i:].startswith(p)`. */
  predicate OccursAt(t: string, i: nat, p: string) {
    i + |p| <= |t| && t[i..i + |p|] == p
  }

  /** A case-insensitive match of `p` at `i` is an occurrence of `p` in
      `s.lower()` at `i`. */
  lemma MatchesAtLower(s: string, i: nat, p: string)
    ensures MatchesAt(s, i, p) <==> OccursAt(Lower(s), i, p)
  {
    if i + |p| <= |s| {
      var t := Lower(s)[i..i + |p|];
      assert forall k :: 0 <= k < |p| ==> t[k] == LowerChar(s[i + k]);
      if MatchesAt(s, i, p) {
        assert t == p;
      }
    }
  }

  /** `p in s.lower()` is ContainsCI(s, p). */
  lemma ContainsLower(s: string, p: string)
    ensures ContainsCI(s, p) <==> exists i: nat | i <= |s| :: OccursAt(Lower(s), i, p)
  {
    forall i: nat | i <= |s|
      ensures MatchesAt(s, i, p) <==> OccursAt(Lower(s), i, p)
    {
      MatchesAtLower(s, i, p);
    }
  }

  /** The first position at or after `from` where `p` matches. */
  function FindFrom(s: string, p: string, from: nat): (r: Option<nat>)
    ensures r.Some? ==> from <= r.value && MatchesAt(s, r.value, p)
    ensures r.Some? ==> forall k: nat :: from <= k < r.value ==> !MatchesAt(s, k, p)
    ensures r.None? ==> forall k: nat :: from <= k ==> !MatchesAt(s, k, p)
    decreases |s| - from
  {
    if from + |p| > |s| then None
    else if MatchesAt(s, from, p) then Some(from)
    else FindFrom(s, p, from + 1)
  }

  lemma MatchInSuffix(a: string, b: string, k: nat, p: string)
    requires MatchesAt(b, k, p)
    ensures MatchesAt(a + b, |a| + k, p)
  {
    forall j | 0 <= j < |p| ensures LowerChar((a + b)[|a| + k + j]) == p[j] {
      assert (a + b)[|a| + k + j] == b[k + j];
    }
  }

  lemma MatchInPrefix(a: string, b: string, k: nat, p: string)
    requires MatchesAt(a, k, p)
    ensures MatchesAt(a + b, k, p)
  {
    forall j | 0 <= j < |p| ensures LowerChar((a + b)[k + j]) == p[j] {
      assert (a + b)[k + j] == a[k + j];
    }
  }

  /** A match inside a slice is a match in the whole text. */
  lemma MatchInSlice(s: string, i: nat, j: nat, k: nat, p: string)
    requires i <= j <= |s|
    requires MatchesAt(s[i..j], k, p)
    ensures MatchesAt(s, i + k, p)
  {
    var t := s[i..j];
    forall m | 0 <= m < |p| ensures LowerChar(s[i + k + m]) == p[m] {
      assert LowerChar(t[k + m]) == p[m];
      assert t[k + m] == s[i + k + m];
    }
  }

  /** A match past the front part `a` is a match in the back part `b`. */
  lemma MatchPastPrefix(a: string, b: string, k: nat, p: string)
    requires MatchesAt(a + b, |a| + k, p)
    ensures MatchesAt(b, k, p)
  {
    assert b == (a + b)[|a|..|a + b|];
    assert (a + b)[|a|..|a + b|] == (a + b)[|a|..];
    forall m | 0 <= m < |p| ensures LowerChar(b[k + m]) == p[m] {
      assert b[k + m] == (a + b)[|a| + k + m];
    }
  }

  /** A substring of a text free of `p` is free of `p` too. */
  lemma NoMatchInSlice(s: string, i: nat, j: nat, p: string)
    requires i <= j <= |s|
    requires !ContainsCI(s, p)
    ensures !ContainsCI(s[i..j], p)
  {
    if ContainsCI(s[i..j], p) {
      var k: nat :| k <= |s[i..j]| && MatchesAt(s[i..j], k, p);
      MatchInSlice(s, i, j, k, p);
    }
  }

  /** FindFrom is pinned down by a match with no earlier match. */
  lemma FindFromIs(s: string, p: string, from: nat, m: nat)
    requires from <= m && MatchesAt(s, m, p)
    requires forall k: nat :: from <= k < m ==> !MatchesAt(s, k, p)
    ensures FindFrom(s, p, from) == Some(m)
  {
  }

  /** When `p` starts with a character found nowhere else in it, and the
      text has that character at `m`, then no match starts in `[from, m)`
      unless one lies wholly inside `s[from..m]`. */
  lemma NoMatchBefore(s: string, p: string, from: nat, m: nat)
    requires from <= m < |s|
    requires |p| > 0 && LowerChar(s[m]) == p[0]
    requires forall d :: 1 <= d < |p| ==> p[d] != p[0]
    requires !ContainsCI(s[from..m], p)
    ensures forall k: nat :: from <= k < m ==> !MatchesAt(s, k, p)
  {
    forall k: nat | from <= k < m ensures !MatchesAt(s, k, p) {
      if k + |p| <= m {
        var t := s[from..m];
        var k' := k - from;
        assert k' <= |t| && !MatchesAt(t, k', p);
        var q :| 0 <= q < |p| && LowerChar(t[k' + q]) != p[q];
        assert t[k' + q] == s[k + q];
      } else {
        var d := m - k;
        assert LowerChar(s[k + d]) != p[d];
      }
    }
  }

  // ---------------------------------------------------------------------
  // str(int) and int(str)
  // ---------------------------------------------------------------------

  function DigitChar(d: nat): char
    requires d < 10
  {
    ('0' as int + d) as char
  }

  /** Decimal digits of `n`, most significant first, no leading zero. */
  function NatToString(n: nat): (r: string)
    ensures |r| > 0
    ensures forall i :: 0 <= i < |r| ==> IsDigit(r[i])
  {
    if n < 10 then [DigitChar(n)] else NatToString(n / 10) + [DigitChar(n % 10)]
  }

  /** `str(n)` for a Python int. */
  function IntToString(n: int): string {
    if n < 0 then "-" + NatToString(-n) else NatToString(n)
  }

  /** Python's grammar for the digits of an integer literal: digits, with
      single underscores allowed between two digits. */
  predicate DecimalDigits(s: string) {
    && |s| > 0 && IsDigit(s[0]) && IsDigit(s[|s| - 1])
    && (forall i :: 0 <= i < |s| ==> IsDigit(s[i]) || s[i] == '_')
    && (forall i :: 0 <= i < |s| - 1 ==> !DoubleUnderscoreAt(s, i))
  }

  predicate DoubleUnderscoreAt(s: string, i: int)
    requires 0 <= i < |s| - 1
  {
    s[i] == '_' && s[i + 1] == '_'
  }

  /** Value of a run of digits, underscores ignored. */
  function DigitsValue(s: string): nat
  {
    if s == [] then 0
    else
      var c := s[|s| - 1];
      if IsDigit(c) then 10 * DigitsValue(s[..|s| - 1]) + (c as int - '0' as int)
      else DigitsValue(s[..|s| - 1])
  }

  /** The characters `int()` skips around a numeral: C's `isspace` set
      (U+0009..U+000D and the space) and every non-ASCII `str.isspace()`
      character, which CPython turns into a space before parsing.
      U+001C..U+001F are whitespace to `strip()` but not to `int()`. */
  predicate IntSkips(c: char) {
    IsSpace(c) && !('\U{1C}' <= c <= '\U{1F}')
  }

  /** The whitespace `strip()` would remove from `s` is all of a kind
      `int()` skips too. */
  predicate IntSkipsEdges(s: string) {
    && (forall i :: 0 <= i < LeadingSpaces(s) ==> IntSkips(s[i]))
    && (forall i :: TrailingStart(s) <= i < |s| ==> IntSkips(s[i]))
  }

  /** CPython's default bound on the number of digits `int()` converts
      from a decimal string; a longer numeral is a ValueError. */
  const MaxIntDigits := 4300

  /** `int(s)` for base 10: surrounding whitespace, an optional sign and
      decimal digits with single underscores; anything else is the
      ValueError, here None. When the whitespace around the numeral holds
      one of U+001C..U+001F, `int()` stops skipping there and meets a
      character that is neither a sign nor a digit, so it fails. */
  function ParseInt(s: string): (r: Option<int>)
    ensures AllSpace(s) ==> r.None?
    ensures r.Some? ==> IntSkipsEdges(s)
  {
    if IntSkipsEdges(s) then ParseSigned(Strip(s)) else None
  }

  /** Number of digits in `s`, underscores not counted. */
  function DigitCount(s: string): (n: nat)
    ensures n <= |s|
  {
    if s == [] then 0
    else DigitCount(s[..|s| - 1]) + (if IsDigit(s[|s| - 1]) then 1 else 0)
  }

  /** An optional sign, then decimal digits, with nothing around them. */
  function ParseSigned(t: string): (r: Option<int>)
    ensures t == "" ==> r.None?
  {
    var signed := t != [] && (t[0] == '+' || t[0] == '-');
    var body := if signed then t[1..] else t;
    if !DecimalDigits(body) || DigitCount(body) > MaxIntDigits then None
    else Some(if signed && t[0] == '-' then -(DigitsValue(body) as int) else DigitsValue(body))
  }

  lemma {:induction false} NatToStringValue(n: nat)
    ensures DigitsValue(NatToString(n)) == n
    ensures DecimalDigits(NatToString(n))
    ensures DigitCount(NatToString(n)) == |NatToString(n)|
  {
    var r := NatToString(n);
    if n >= 10 {
      NatToStringValue(n / 10);
      var p := NatToString(n / 10);
      assert r[..|r| - 1] == p;
    }
  }

  /** `int(str(n)) == n` for every integer of at most 4300 digits; a
      longer numeral is refused. */
  lemma ParseIntOfString(n: int)
    ensures |NatToString(if n < 0 then -n else n)| <= MaxIntDigits ==> ParseInt(IntToString(n)) == Some(n)
    ensures |NatToString(if n < 0 then -n else n)| > MaxIntDigits ==> ParseInt(IntToString(n)) == None
  {
    var m: nat := if n < 0 then -n else n;
    var t := NatToString(m);
    NatToStringValue(m);
    if n < 0 {
      NegatedDigits(t);
    } else {
      UnsignedDigits(t);
    }
  }

  /** A string with no whitespace at either end is read as it stands. */
  lemma ParseIntOfStripped(s: string)
    requires NoEdgeSpace(s)
    ensures ParseInt(s) == ParseSigned(s)
  {
    StripOfStripped(s);
    assert LeadingSpaces(s) == 0;
    assert TrailingStart(s) == |s|;
  }

  /** Digits with nothing around them read as their value, up to the
      digit limit. */
  lemma UnsignedDigits(s: string)
    requires DecimalDigits(s)
    ensures ParseInt(s) == if DigitCount(s) <= MaxIntDigits then Some(DigitsValue(s) as int) else None
  {
    assert !IsSpace(s[0]) && !IsSpace(s[|s| - 1]);
    ParseIntOfStripped(s);
    assert s[0] != '+' && s[0] != '-';
  }

  /** A minus sign before digits negates their value, up to the digit
      limit. */
  lemma NegatedDigits(s: string)
    requires DecimalDigits(s)
    ensures ParseInt("-" + s) == if DigitCount(s) <= MaxIntDigits then Some(-(DigitsValue(s) as int)) else None
  {
    var n := "-" + s;
    assert NoEdgeSpace(n) by {
      assert n[0] == '-' && n[|n| - 1] == s[|s| - 1];
    }
    ParseIntOfStripped(n);
    SignedDigits(n, s);
  }

  lemma SignedDigits(n: string, s: string)
    requires DecimalDigits(s) && n == "-" + s
    ensures ParseSigned(n) == if DigitCount(s) <= MaxIntDigits then Some(-(DigitsValue(s) as int)) else None
  {
    assert n[0] == '-';
    assert n[1..] == s;
  }

  /** Whitespace that `int()` skips does not change what it reads, and
      whitespace around a numeral that it reads can be dropped. */
  lemma ParseIntIgnoresSpace(s: string)
    ensures IntSkipsEdges(s) ==> ParseInt(Strip(s)) == ParseInt(s)
    ensures ParseInt(s).Some? ==> ParseInt(Strip(s)) == ParseInt(s)
  {
    StripIdempotent(s);
    StripClean(s);
    ParseIntOfStripped(Strip(s));
  }

  lemma StripClean(s: string)
    ensures NoEdgeSpace(Strip(s))
  {
  }

  /** `int("\x1c5")` fails although `"\x1c5".strip()` is `"5"`. */
  lemma IntRefusesSeparator()
    ensures Strip("\U{1C}5") == "5" && ParseInt("5") == Some(5)
    ensures ParseInt("\U{1C}5") == None
  {
    var s := "\U{1C}5";
    assert LeadingSpaces(s) == 1;
    assert !IntSkips(s[0]);
    assert !IntSkipsEdges(s);
    assert Strip(s) == "5" by {
      assert s[1..] == "5";
    }
    UnsignedDigits("5");
  }
}

=== FILE: utils.dfy ===
/** The pure helpers of the bot's utility module: history clamping,
    whitespace canonicalisation, the retry delay and the removal of the
    model's `<think>` reasoning blocks. */
module Utils {
  import opened Optional
  import opened Str

  // ---------------------------------------------------------------------
  // clamp_chat_history
  // ---------------------------------------------------------------------

  /** Start index of Python's slice `xs[-k:]` on a list of length `len`:
      a negative index counts from the end and is clamped at 0, a
      non-negative one (including `-0`) is clamped at `len`. */
  function NegativeSliceStart(len: nat, k: int): (start: nat)
    ensures start <= len
  {
    if -k < 0 then (if len - k < 0 then 0 else len - k)
    else if -k > len then len
    else -k
  }

  /** `clamp_chat_history(messages, max_turns)`: the last `2 * max_turns`
      messages, with Python's slice semantics for `messages[-keep:]`. */
  function ClampChatHistory<T>(messages: seq<T>, maxTurns: int): (r: seq<T>)
    ensures |r| <= |messages|
    ensures r == messages[|messages| - |r|..]
    ensures messages == [] ==> r == []
    ensures maxTurns >= 1 ==> |r| == Min(|messages|, 2 * maxTurns)
    ensures maxTurns == 0 ==> r == messages
    ensures maxTurns < 0 ==> |r| == Max(0, |messages| + 2 * maxTurns)
  {
    if messages == [] then []
    else
      var keep := maxTurns * 2;
      messages[NegativeSliceStart(|messages|, keep)..]
  }

  function Min(a: int, b: int): int {
    if a <= b then a else b
  }

  function Max(a: int, b: int): int {
    if a >= b then a else b
  }

  /** Clamping twice with the same non-negative bound clamps once. */
  lemma ClampIdempotent<T>(messages: seq<T>, maxTurns: int)
    requires maxTurns >= 0
    ensures ClampChatHistory(ClampChatHistory(messages, maxTurns), maxTurns)
         == ClampChatHistory(messages, maxTurns)
  {
    var r := ClampChatHistory(messages, maxTurns);
    var rr := ClampChatHistory(r, maxTurns);
    assert |rr| == |r|;
  }

  // ---------------------------------------------------------------------
  // safe_strip
  // ---------------------------------------------------------------------

  /** Canonical whitespace: no whitespace at either end, no whitespace
      other than the plain space, and never two spaces in a row. */
  predicate Collapsed(r: string) {
    && NoEdgeSpace(r)
    && (forall i :: 0 <= i < |r| && IsSpace(r[i]) ==> r[i] == ' ')
    && (forall i :: 0 <= i < |r| ==> !DoubleSpaceAt(r, i))
  }

  /** Two spaces in a row start at `i`. */
  predicate DoubleSpaceAt(r: string, i: nat) {
    i + 1 < |r| && r[i] == ' ' && r[i + 1] == ' '
  }

  /** `safe_strip(text)`: `""` for None or empty text, otherwise
      `" ".join(text.strip().split())`. */
  function SafeStrip(text: Option<string>): (r: string)
    ensures text.None? || text == Some("") ==> r == ""
    ensures Collapsed(r)
    ensures NonSpaceChars(r) == NonSpaceChars(text.ValueOr(""))
    ensures Split(r) == Split(text.ValueOr(""))
  {
    match text
    case None => ""
    case Some(t) =>
      if t == "" then ""
      else
        var words := Split(Strip(t));
        CollapsedJoin(words);
        NonSpaceCharsJoin(words);
        ConcatSplit(Strip(t));
        NonSpaceCharsOfStrip(t);
        SplitJoin(words);
        SplitOfStrip(t);
        JoinWith(words, " ")
  }

  lemma NonSpaceCharsOfBlank(s: string)
    requires AllSpace(s)
    ensures NonSpaceChars(s) == ""
    decreases |s|
  {
    if s != [] {
      NonSpaceCharsOfBlank(s[1..]);
    }
  }

  /** Stripping removes only whitespace. */
  lemma NonSpaceCharsOfStrip(s: string)
    ensures NonSpaceChars(Strip(s)) == NonSpaceChars(s)
  {
    var i := LeadingSpaces(s);
    var r := Strip(s);
    var j := i + |r|;
    assert s == s[..i] + r + s[j..];
    NonSpaceCharsAppend(s[..i] + r, s[j..]);
    NonSpaceCharsAppend(s[..i], r);
    NonSpaceCharsOfBlank(s[..i]);
    NonSpaceCharsOfBlank(s[j..]);
  }

  /** Words joined by single spaces are in canonical form. */
  lemma {:induction false} CollapsedJoin(ws: seq<string>)
    requires forall i :: 0 <= i < |ws| ==> IsWord(ws[i])
    ensures Collapsed(JoinWith(ws, " "))
    decreases |ws|
  {
    if |ws| <= 1 {
    } else {
      var w := ws[0];
      var j := JoinWith(ws[1..], " ");
      CollapsedJoin(ws[1..]);
      JoinNonEmpty(ws[1..], " ");
      var s := w + " " + j;
      assert JoinWith(ws, " ") == s;
      forall i | 0 <= i < |s| && IsSpace(s[i]) ensures s[i] == ' ' {
        if i > |w| {
          assert s[i] == j[i - |w| - 1];
        }
      }
      forall i | 0 <= i < |s| ensures !DoubleSpaceAt(s, i) {
        if i > |w| && i + 1 < |s| {
          assert s[i] == j[i - |w| - 1] && s[i + 1] == j[i - |w|];
          assert !DoubleSpaceAt(j, i - |w| - 1);
        } else if i == |w| {
          assert s[i + 1] == j[0];
        }
      }
      assert s[|s| - 1] == j[|j| - 1];
    }
  }

  /** The text after the first word and its separating space of a canonical
      text is canonical and starts with a word. */
  lemma CollapsedAfterFirstWord(r: string, n: nat)
    requires Collapsed(r) && 0 < n < |r| && n == SpanNonSpace(r)
    ensures r[n] == ' ' && n + 1 < |r|
    ensures Collapsed(r[n + 1..]) && !IsSpace(r[n + 1])
  {
    var rest := r[n + 1..];
    forall i | 0 <= i < |rest| && IsSpace(rest[i]) ensures rest[i] == ' ' {
      assert rest[i] == r[n + 1 + i];
    }
    forall i | 0 <= i < |rest| ensures !DoubleSpaceAt(rest, i) {
      if i + 1 < |rest| {
        assert rest[i] == r[n + 1 + i] && rest[i + 1] == r[n + 2 + i];
        assert !DoubleSpaceAt(r, n + 1 + i);
      }
    }
    assert !DoubleSpaceAt(r, n);
  }

  /** A canonical text is the space-join of its own words. */
  lemma {:induction false} JoinSplitOfCollapsed(r: string)
    requires Collapsed(r)
    ensures JoinWith(Split(r), " ") == r
    decreases |r|
  {
    if r != [] {
      var n := SpanNonSpace(r);
      if n == |r| {
        assert r[n..] == [];
        assert Split(r) == [r[..n]];
        assert r[..n] == r;
      } else {
        CollapsedAfterFirstWord(r, n);
        JoinSplitOfCollapsed(r[n + 1..]);
        SplitAtWord(r, n);
        JoinSplitStep(r, n, Split(r[n + 1..]));
      }
    }
  }

  /** The inductive step of JoinSplitOfCollapsed: the first word, one
      space, and the rest. */
  lemma JoinSplitStep(r: string, n: nat, ws: seq<string>)
    requires n + 1 < |r| && r[n] == ' '
    requires JoinWith(ws, " ") == r[n + 1..]
    ensures JoinWith([r[..n]] + ws, " ") == r
  {
    var rest := r[n + 1..];
    assert ws != [] by {
      assert JoinWith(ws, " ") == rest && rest != "";
    }
    var w := r[..n];
    JoinCons(w, ws);
    assert [r[n]] == " ";
    assert r == w + [r[n]] + rest;
  }

  /** Splitting at a word followed by a space. */
  lemma SplitAtWord(r: string, n: nat)
    requires r != [] && !IsSpace(r[0]) && n == SpanNonSpace(r) && n < |r|
    ensures Split(r) == [r[..n]] + Split(r[n + 1..])
  {
    assert r[n..][1..] == r[n + 1..];
  }

  lemma JoinCons(w: string, ws: seq<string>)
    requires ws != []
    ensures JoinWith([w] + ws, " ") == w + " " + JoinWith(ws, " ")
  {
    assert ([w] + ws)[1..] == ws;
  }

  /** `safe_strip` is idempotent. */
  lemma SafeStripIdempotent(text: Option<string>)
    ensures SafeStrip(Some(SafeStrip(text))) == SafeStrip(text)
  {
    SafeStripFixpoint(SafeStrip(text));
  }

  /** The texts `safe_strip` leaves alone are exactly the canonical ones. */
  lemma SafeStripFixpoint(s: string)
    ensures SafeStrip(Some(s)) == s <==> Collapsed(s)
  {
    if Collapsed(s) && s != "" {
      StripOfStripped(s);
      JoinSplitOfCollapsed(s);
    }
  }

  // ---------------------------------------------------------------------
  // sleep_backoff
  // ---------------------------------------------------------------------

  function Pow2(n: nat): (r: nat)
    ensures r >= 1
  {
    if n == 0 then 1 else 2 * Pow2(n - 1)
  }

  /** Seconds slept by `sleep_backoff(attempt)`: `min(8, 2 ** attempt)`. */
  function BackoffDelay(attempt: nat): (d: nat)
    ensures 1 <= d <= 8
    ensures attempt <= 3 ==> d == Pow2(attempt)
  {
    if Pow2(attempt) < 8 then Pow2(attempt) else 8
  }

  lemma {:induction false} Pow2Monotonic(a: nat, b: nat)
    requires a <= b
    ensures Pow2(a) <= Pow2(b)
    decreases b - a
  {
    if a < b {
      Pow2Monotonic(a, b - 1);
    }
  }

  /** The delay never shrinks as attempts go on, and is capped from the
      fourth attempt on. */
  lemma BackoffMonotonic(a: nat, b: nat)
    requires a <= b
    ensures BackoffDelay(a) <= BackoffDelay(b)
    ensures b >= 3 ==> BackoffDelay(b) == 8
  {
    Pow2Monotonic(a, b);
    if b >= 3 {
      Pow2Monotonic(3, b);
    }
  }

  // ---------------------------------------------------------------------
  // strip_think_blocks
  // ---------------------------------------------------------------------

  /** The reasoning-block markers, in the lower case they are matched in. */
  const Opener := "<think>"
  const Closer := "</think>"

  /** A spelling of `m` in any letter case. */
  predicate SpellsCI(x: string, m: string) {
    |x| == |m| && MatchesAt(x, 0, m)
  }

  /** `re.sub(r"<think>.*?</think>", "", s, flags=DOTALL|IGNORECASE)`: from
      the first opener, delete up to and including the first closer after
      it, then continue after that closer. With no closer after the first
      opener there is none after any later opener either, so the rest stays. */
  function RemovePairedBlocks(s: string): (r: string)
    ensures |r| <= |s|
    ensures !ContainsCI(s, Opener) ==> r == s
    decreases |s|
  {
    match FindFrom(s, Opener, 0)
    case None => s
    case Some(i) =>
      match FindFrom(s, Closer, i + |Opener|)
      case None => s
      case Some(j) => s[..i] + RemovePairedBlocks(s[j + |Closer|..])
  }

  /** `re.sub(r"<think>.*$", "", s, flags=DOTALL|IGNORECASE)`: the text
      before its first opener, or all of it when there is none. */
  function CutUnterminated(s: string): (r: string)
    ensures StartsWith(s, r)
    ensures !ContainsCI(r, Opener)
    ensures r == s <==> !ContainsCI(s, Opener)
    ensures r != s ==> MatchesAt(s, |r|, Opener)
  {
    match FindFrom(s, Opener, 0)
    case None => s
    case Some(i) =>
      NoMatchInPrefix(s, i, Opener);
      s[..i]
  }

  /** The text before the first match of `p` holds no match of `p`. */
  lemma NoMatchInPrefix(s: string, i: nat, p: string)
    requires i <= |s| && |p| > 0
    requires forall k: nat :: k < i ==> !MatchesAt(s, k, p)
    ensures !ContainsCI(s[..i], p)
  {
    if ContainsCI(s[..i], p) {
      var k: nat :| k <= i && MatchesAt(s[..i], k, p);
      assert s[..i] == s[0..i];
      MatchInSlice(s, 0, i, k, p);
    }
  }

  /** `strip_think_blocks(text)`. */
  function StripThinkBlocks(text: string): (r: string)
    ensures text == "" ==> r == ""
    ensures !ContainsCI(r, Opener)
    ensures NoEdgeSpace(r)
    ensures !ContainsCI(text, Opener) ==> r == Strip(text)
  {
    if text == "" then ""
    else
      var cut := CutUnterminated(RemovePairedBlocks(text));
      StripKeepsNoMatch(cut, Opener);
      Strip(cut)
  }

  /** Stripping cannot create a match. */
  lemma StripKeepsNoMatch(s: string, p: string)
    requires !ContainsCI(s, p)
    ensures !ContainsCI(Strip(s), p)
  {
    var r := Strip(s);
    var i := LeadingSpaces(s);
    NoMatchInSlice(s, i, i + |r|, p);
  }

  lemma StripThinkBlocksIdempotent(text: string)
    ensures StripThinkBlocks(StripThinkBlocks(text)) == StripThinkBlocks(text)
  {
    StripOfStripped(StripThinkBlocks(text));
  }

  /** The first match of a marker whose first character occurs nowhere else
      in it: a match at `m` with none inside `s[from..m]`. */
  lemma FirstMarkerAt(s: string, p: string, from: nat, m: nat)
    requires p == Opener || p == Closer
    requires from <= m && MatchesAt(s, m, p)
    requires !ContainsCI(s[from..m], p)
    ensures FindFrom(s, p, from) == Some(m)
  {
    NoMatchBefore(s, p, from, m);
    FindFromIs(s, p, from, m);
  }

  /** A spelling of a marker placed after `a` matches at `|a|`. */
  lemma SpelledMarkerMatches(a: string, x: string, tail: string, p: string)
    requires |x| == |p| && MatchesAt(x, 0, p)
    ensures MatchesAt(a + x + tail, |a|, p)
  {
    forall j | 0 <= j < |p| ensures LowerChar((a + x + tail)[|a| + j]) == p[j] {
      assert (a + x + tail)[|a| + j] == x[j];
    }
  }

  /** The first opener of `a + o + rest` is `o` when `a` holds none. */
  lemma OpenerFound(a: string, o: string, rest: string)
    requires SpellsCI(o, Opener) && !ContainsCI(a, Opener)
    ensures FindFrom(a + o + rest, Opener, 0) == Some(|a|)
  {
    var s := a + o + rest;
    SpelledMarkerMatches(a, o, rest, Opener);
    assert s[0..|a|] == a;
    FirstMarkerAt(s, Opener, 0, |a|);
  }

  /** Searching from `|pre|`, the first closer of `pre + b + c + rest` is
      `c` when `b` holds none. */
  lemma CloserFound(pre: string, b: string, c: string, rest: string)
    requires SpellsCI(c, Closer) && !ContainsCI(b, Closer)
    ensures FindFrom(pre + b + c + rest, Closer, |pre|) == Some(|pre| + |b|)
  {
    var s := pre + b + c + rest;
    SpelledMarkerMatches(pre + b, c, rest, Closer);
    assert s[|pre|..|pre| + |b|] == b;
    FirstMarkerAt(s, Closer, |pre|, |pre| + |b|);
  }

  /** A closed reasoning block is deleted, and removal carries on after it. */
  lemma RemovesPairedBlock(a: string, o: string, b: string, c: string, rest: string)
    requires SpellsCI(o, Opener) && SpellsCI(c, Closer)
    requires !ContainsCI(a, Opener) && !ContainsCI(b, Closer)
    ensures RemovePairedBlocks(a + o + b + c + rest) == a + RemovePairedBlocks(rest)
  {
    var s := a + o + b + c + rest;
    assert s == a + o + (b + c + rest);
    OpenerFound(a, o, b + c + rest);
    assert s == (a + o) + b + c + rest;
    CloserFound(a + o, b, c, rest);
    assert s[..|a|] == a;
    assert s[|a| + |Opener| + |b| + |Closer|..] == rest;
  }

  /** An opener with no closer after it cuts the text there. */
  lemma StripsUnterminatedBlock(a: string, o: string, b: string)
    requires SpellsCI(o, Opener)
    requires !ContainsCI(a, Opener) && !ContainsCI(b, Closer)
    ensures StripThinkBlocks(a + o + b) == Strip(a)
  {
    var s := a + o + b;
    OpenerFound(a, o, b);
    var from := |a| + |Opener|;
    forall k: nat | from <= k ensures !MatchesAt(s, k, Closer) {
      if MatchesAt(s, k, Closer) {
        assert s == (a + o) + b;
        MatchPastPrefix(a + o, b, k - from, Closer);
      }
    }
    assert RemovePairedBlocks(s) == s;
    assert CutUnterminated(s) == a;
  }

  /** A closed reasoning block disappears from the answer. */
  lemma StripsPairedBlock(a: string, o: string, b: string, c: string, rest: string)
    requires SpellsCI(o, Opener) && SpellsCI(c, Closer)
    requires !ContainsCI(b, Closer)
    requires !ContainsCI(a + rest, Opener)
    ensures StripThinkBlocks(a + o + b + c + rest) == Strip(a + rest)
  {
    NoMatchInSlice(a + rest, 0, |a|, Opener);
    assert (a + rest)[0..|a|] == a;
    NoMatchInSlice(a + rest, |a|, |a + rest|, Opener);
    assert (a + rest)[|a|..|a + rest|] == rest;
    RemovesPairedBlock(a, o, b, c, rest);
  }
}
